=== FILE: README.md ===
# GuePetri workflow scheduler, modelled in Dafny

A model of the core of GuePetri's `pkg/petri`. The core is a workflow engine.
Each workflow is a graph of places linked by transitions. A graph instance holds
a Start, a Finish and a nullable Current place, and it moves one transition per
signal. User-supplied handlers decide which transition to take and which place
it leads to. The engine checks every such decision against the declared
adjacency sets. An orchestrator keeps many graph instances in a level-keyed
priority queue. It drives the head graph with each signal. When the head
reaches Finish, the orchestrator finishes it, evicts it, and drives the next
head with a zero signal, recursively.

The model has five layers. Each is a module of immutable datatypes and pure
functions:

- `Fifo` (`fifo.dfy`): the slice-backed FIFO that stores one priority level.
- `Topology` (`topology.dfy`): places and transitions, each with the growing
  set of identifiers it may lead to. A set that was never created (a nil map)
  is `None` and reads as empty.
- `Petri` (`petri.dfy`): one graph instance and its state machine:
  `StartGraph`, `Act`, `FinishGraph`, `IsOnStart`, `IsOnFinish` and the
  setters.
  - Places and transitions live in an arena (`Net`) keyed by identifier.
  - Handlers are pure functions selected by handler identity (`Callbacks`).
    They return `Pass`/`Fail`, or `Ok(id)`/`Err` for ChooseTo and Handle.
  - Every handler invocation is recorded as an `Event`, so the call order the
    engine promises can be stated.
- `Priority` (`priority.dfy`): the map from level to FIFO with its cached
  maximum level.
  - It carries the representation invariant `Valid`: every present level is
    non-empty, and the cached maximum is the greatest present level, or 0
    when none is present.
  - `Count` (the number of queued items) is the termination measure of the
    orchestrator's cascade.
- `Scheduler` (`scheduler.dfy`): the orchestrator, with `AddGraph` and the
  recursive `Act`.
  - In the engine the queue holds pointers, so the head graph's step is
    visible in the queue. `Refresh` writes the stepped graph back over the
    head of its level to the same effect.
  - `Act` is `DriveHead` (one pass: peek, step, finish, pop, identifier
    check) plus the recursive cascade.

`Outcomes` (`outcomes.dfy`) holds `Option`, `Result`, `Status` and the error
kinds. There is one error kind per distinct failure site in `graph.go` and
`petriqueue.go`. `Scenarios` (`scenarios.dfy`) restates the engine's unit
tests as lemmas about concrete runs. That includes the full handler-call
traces of both orchestrator tests.

Behaviour worth knowing, all proved:

- `Scheduler.Act` never reports the pop-failed or identifier-mismatch
  errors, on any queue. It never reports peek-failed while the queue
  satisfies `Priority.Valid`.
- A first graph added at a negative level jams the orchestrator. The queue
  is non-empty but its head cannot be found, so every `Scheduler.Act`
  reports peek-failed and changes nothing. Act alone never clears this
  state (`Scheduler.NegativeFirstLevelJams`).
- A failed HandleIn on the entered place still leaves Current advanced
  (`Petri.Act`, error `PlaceInFailed`).
- Pushing a negative level into an empty priority queue leaves the cached
  maximum at 0. The item is then stored but invisible to `Peek` and `Pop`
  (`Priority.NegativeLevelHidesItem`). `Priority.Push` keeps `Valid` exactly
  when the level is non-negative or the queue already holds a level.
- In the two-level run, graph1 is started when it is added at level 0,
  because the queue was empty then (`Scenarios.TwoLevelsAdd`).

## Model

| member | source | states |
|---|---|---|
| Fifo.NewQueue | pkg/petri/primitives/queue/queue.go:8-12 | a new queue is empty |
| Fifo.IsEmptyIffFresh | pkg/petri/primitives/queue/queue.go:50-52 | IsEmpty holds exactly for the queue equal to a freshly created one |
| Fifo.Enqueue | pkg/petri/primitives/queue/queue.go:15-17 | the queue grows by one; the old elements keep their positions and the value is at the back |
| Fifo.Push | pkg/petri/primitives/queue/queue.go:20-22 | Push is the same operation as Enqueue |
| Fifo.Dequeue | pkg/petri/primitives/queue/queue.go:25-34 | not-found exactly on an empty queue, which is left unchanged; otherwise the returned front followed by the remaining queue is the old queue |
| Fifo.Pop | pkg/petri/primitives/queue/queue.go:37-39 | Pop is the same operation as Dequeue |
| Fifo.Peek | pkg/petri/primitives/queue/queue.go:42-47 | Peek reports exactly the item Dequeue would remove, and not-found on an empty queue |
| Fifo.DequeueAfterEnqueue | pkg/petri/primitives/queue/queue.go:15-34 | Dequeue after Enqueue: an empty queue returns the new value and becomes empty again; otherwise the old front leaves and the new value stays at the back |
| Fifo.EnqueueAllAppends | pkg/petri/primitives/queue/queue.go:15-17 | enqueuing a sequence appends it in order |
| Fifo.DrainYieldsContents | pkg/petri/primitives/queue/queue.go:25-34 | dequeuing until not-found yields the queue's contents front to back |
| Fifo.FirstInFirstOut | pkg/petri/primitives/queue/queue_test.go:10-27 | whatever goes into a fresh queue comes out in the same order, then not-found |
| Topology.NewPlace | pkg/petri/primitives/graph/place.go:15-21 | the place has the given id and handler and an existing, empty out-edge set |
| Topology.AddTransition | pkg/petri/primitives/graph/place.go:23-31 | the transition's id becomes an out-edge; all old out-edges stay; no other id is added; id and handler are unchanged |
| Topology.AddTransitionIdempotent | pkg/petri/primitives/graph/place.go:28 | adding the same transition twice equals adding it once |
| Topology.AddTransitionOnMissingSet | pkg/petri/primitives/graph/place.go:24-26 | on a place with no set, AddTransition behaves as on a place with an empty set |
| Topology.NewTransition | pkg/petri/primitives/graph/transition.go:13-19 | the transition has the given id and handler and an existing, empty destination set |
| Topology.AddTo | pkg/petri/primitives/graph/transition.go:21-33 | the place's id is in GetTo afterwards; all old destinations stay; no other id is added; id and handler are unchanged |
| Topology.AddToIdempotent | pkg/petri/primitives/graph/transition.go:26 | adding the same destination twice equals adding it once |
| Topology.AddToOnMissingSet | pkg/petri/primitives/graph/transition.go:22-24 | on a transition with no set, AddTo behaves as on one with an empty set |
| Petri.SetStartNode | pkg/petri/primitives/graph/graph.go:20-24 | Start becomes the given place; id, net, graph handler, Finish and Current are unchanged |
| Petri.SetFinishNode | pkg/petri/primitives/graph/graph.go:26-30 | Finish becomes the given place; id, net, graph handler, Start and Current are unchanged |
| Petri.SetCurrentNode | pkg/petri/primitives/graph/graph.go:32-36 | Current becomes the given place; the topology is unchanged |
| Petri.IsOnStart | pkg/petri/primitives/graph/graph.go:53-55 | on a well-linked net, true exactly when Current is Start |
| Petri.IsOnFinish | pkg/petri/primitives/graph/graph.go:71-73 | on a well-linked net, true exactly when Current is Finish |
| Petri.StartGraph | pkg/petri/primitives/graph/graph.go:38-51 | a graph-level HandleIn failure is reported with the graph untouched and one call made; otherwise Current is Start, HandleIn(nil) on Start follows, and its failure is reported with Current left on Start |
| Petri.Act | pkg/petri/primitives/graph/graph.go:75-117 | the topology never changes and every reference stays resolvable; start failures come only from an unstarted graph; the five refusals (ChooseTo fails, forbidden transition, Handle fails, forbidden place, HandleOut fails) leave Current where the step began; success or a HandleIn failure on the new place leaves Current one legal move further; no queue error kind is ever reported |
| Petri.FinishGraph | pkg/petri/primitives/graph/graph.go:57-69 | Current's HandleOut(nil) comes first and its failure stops the call after that one call; otherwise exactly one more call, the graph-level HandleOut, follows, and the error is GraphOutFailed exactly when it fails, none otherwise; the graph is never changed |
| Petri.ActAutoStarts | pkg/petri/primitives/graph/graph.go:76-82 | an unstarted graph whose start succeeds makes exactly the step of the started graph, after the start calls |
| Petri.ActStartFails | pkg/petri/primitives/graph/graph.go:77-81 | an unstarted graph whose start fails returns exactly the start's result: its calls, its error, the graph it left |
| Petri.StepFollowsHandlers | pkg/petri/primitives/graph/graph.go:84-117 | from a started graph: ChooseToFailed exactly when ChooseTo fails; ForbiddenTransition exactly when its transition is not an out-edge; HandleFailed exactly when Handle on that transition fails; ForbiddenPlace exactly when its place is not a destination; PlaceOutFailed exactly when HandleOut fails; otherwise Current is the place Handle returned, and HandleIn on it decides between PlaceInFailed and success |
| Petri.RefusalTraces | pkg/petri/primitives/graph/graph.go:84-107 | a refused step stops at the refusing call and leaves the graph as it was: ChooseTo failure or a forbidden transition records only ChooseTo; Handle failure or a forbidden place adds Handle on the chosen transition; HandleOut failure adds HandleOut towards Handle's place |
| Petri.StartedCallOrder | pkg/petri/primitives/graph/graph.go:84-117 | from a started graph, a step that moves makes exactly the four calls ChooseTo, Handle, HandleOut(next), HandleIn(old); Handle runs on the transition ChooseTo returned, an out-edge, and the new place is the one Handle returned, one of its destinations |
| Petri.ActCallOrder | pkg/petri/primitives/graph/graph.go:76-117 | a step that moves makes the start calls (when unstarted), then ChooseTo on the old place, Handle on the transition ChooseTo returned (an out-edge of the old place), HandleOut towards the new place and HandleIn from the old one; the new place is the one Handle returned, a destination of that transition |
| Petri.StepKeepsCurrentReachable | pkg/petri/primitives/graph/graph.go:89-110 | a step that leaves Current, puts it on Start, or moves it along an edge keeps Current reachable from Start |
| Petri.ActKeepsCurrentReachable | pkg/petri/primitives/graph/graph.go:75-117 | Current is always reachable from Start through validated moves, before and after any Act |
| Priority.NewPriorityQueue | pkg/petri/primitives/priority/queue.go:17-22 | a new queue is empty, satisfies the invariant and holds no item |
| Priority.Peek | pkg/petri/primitives/priority/queue.go:25-44 | a reported head is the front of the level at the cached maximum, with that level; under the invariant, found exactly when the queue is non-empty, and the level is the greatest present |
| Priority.Push | pkg/petri/primitives/priority/queue.go:47-67 | the item is at the back of its level, which is created if absent; other levels are untouched; one more item is held; the invariant is kept when the level is non-negative or the queue already holds a level |
| Priority.NegativeLevelHidesItem | pkg/petri/primitives/priority/queue.go:58-64 | a negative level pushed into an empty queue is stored, but Peek and Pop find nothing and the invariant is broken |
| Priority.CalculateMax | pkg/petri/primitives/priority/queue.go:111-132 | the greatest key of a non-empty map, 0 for an empty one |
| Priority.ScanMax | pkg/petri/primitives/priority/queue.go:118-131 | the loop's result is at least every key visited; once started it is the running maximum or a visited key; from the unstarted state it is one of the keys |
| Priority.ScanMaxIsCalculateMax | pkg/petri/primitives/priority/queue.go:111-132 | whatever order the map yields its keys in, the scan (0 for no keys) returns the same level as CalculateMax |
| Priority.Evict | pkg/petri/primitives/priority/queue.go:81-84 | the level is gone; the invariant holds again when every other level is non-empty and the cached maximum was right |
| Priority.PopPriority | pkg/petri/primitives/priority/queue.go:70-97 | an absent level is not-found with nothing changed; a level found empty is deleted and reported not-found; otherwise the front is returned and removed, and a level left empty is deleted; one item fewer exactly when found; the invariant is kept |
| Priority.Pop | pkg/petri/primitives/priority/queue.go:99-101 | under the invariant, found exactly when non-empty, returns what Peek reports, keeps the invariant |
| Priority.GetMaxPriority | pkg/petri/primitives/priority/queue.go:103-105 | under the invariant, the greatest present level, or 0 when empty |
| Priority.Len | pkg/petri/primitives/priority/queue.go:107-109 | the number of distinct present levels (not of items), so 0 exactly when no level is present and, under the invariant, never more than the items held |
| Priority.LenAfterPush | pkg/petri/primitives/priority/queue.go:47-67 | Push adds one to Len exactly when its level was absent |
| Priority.LenAfterPopPriority | pkg/petri/primitives/priority/queue.go:70-97 | PopPriority takes one from Len exactly when it finds the level holding at most one item, which it deletes |
| Priority.LenAtMostCount | pkg/petri/primitives/priority/queue.go:107-109 | under the invariant the number of levels is at most the number of items |
| Priority.DrainFromPresentLevels | pkg/petri/primitives/priority/queue.go:99-101 | popping until not-found yields exactly as many items as are held, each from a present level |
| Priority.DrainDescending | pkg/petri/primitives/priority/queue.go:99-101 | repeated Pop serves levels in non-increasing order |
| Priority.DrainTopLevelFirst | pkg/petri/primitives/priority/queue.go:99-101 | repeated Pop first yields the whole top level, in the order it was pushed |
| Priority.PopTopEvicts | pkg/petri/primitives/priority/queue.go:79-96 | popping the only item of the top level leaves exactly the queue without that level; popping one of several leaves the other levels as they were |
| Priority.DrainAfterTopLevel | pkg/petri/primitives/priority/queue.go:99-101 | after the top level, repeated Pop yields exactly what the queue without the top level yields, so every level comes out whole, in push order, highest first |
| Scheduler.NewPetriQueue | pkg/petri/aggregate/petriqueue.go:16-21 | the orchestrator holds the given queue and zero signal |
| Scheduler.Refresh | pkg/petri/aggregate/petriqueue.go:62-67 | the stepped graph replaces the head of its level and nothing else changes: same levels, maximum, item count and identifier roster; the invariant is kept |
| Scheduler.AddGraph | pkg/petri/aggregate/petriqueue.go:23-47 | the graph is always pushed at the level; it is started exactly when it has no Current and the queue had no level or the level is above the previous maximum; when started, the calls, the error and the stored graph are exactly StartGraph's, so start errors are returned with the graph still queued; otherwise nothing is called and the graph is stored unchanged |
| Scheduler.AddGraphStartsOnlyAbove | pkg/petri/aggregate/petriqueue.go:28-39 | under the invariant, a graph without Current is started exactly when its level is above every present level |
| Scheduler.NegativeFirstLevelJams | pkg/petri/aggregate/petriqueue.go:23-65 | a graph added first at a negative level leaves a non-empty queue on which Act reports peek-failed, calls nothing and returns the same state |
| Scheduler.DriveHead | pkg/petri/aggregate/petriqueue.go:58-95 | an empty queue is a no-op; a non-empty queue whose head Peek cannot find reports peek-failed and changes nothing; pop-failed and identifier-mismatch are never reported; a settled call keeps the item count; an eviction removes exactly one item |
| Scheduler.Retire | pkg/petri/aggregate/petriqueue.go:81-84 | finishing and popping the head removes exactly that graph's identifier from the front of its level, one item, and keeps the invariant |
| Scheduler.RosterAfterPop | pkg/petri/primitives/priority/queue.go:79-96 | popping a non-empty level drops the front identifier of that level and nothing else |
| Scheduler.Act | pkg/petri/aggregate/petriqueue.go:53-103 | on an empty queue nothing is called and nothing changes; on a non-empty queue whose head Peek cannot find, peek-failed is reported and nothing changes; pop-failed and identifier-mismatch are never reported; under the invariant the invariant is kept and peek-failed is not reported either; the item count never grows; the cascade ends because each recursive call follows a removal |
| Scheduler.DriveHeadKeepsValid | pkg/petri/aggregate/petriqueue.go:62-95 | under the invariant, one pass keeps the invariant and never reports peek-failed, pop-failed or an identifier mismatch |
| Scheduler.DriveHeadCases | pkg/petri/aggregate/petriqueue.go:62-95 | on a non-empty queue the pass either settles with the step's result, settles with FinishGraph's error, or evicts the head, with the exact resulting state and calls |
| Scheduler.ActKeepsUnfinishedHead | pkg/petri/aggregate/petriqueue.go:62-74 | Act steps the head (greatest level, front of it); if the step fails or misses Finish, its error and calls are returned, the stepped graph stays at the head and every level keeps its graphs in order |
| Scheduler.ActFinishesReachedHead | pkg/petri/aggregate/petriqueue.go:72-79 | a head that reached Finish gets FinishGraph (HandleOut(nil) on Finish first) right after its step; if that fails, its error is returned and the graph stays queued |
| Scheduler.ActEvictsFinishedHead | pkg/petri/aggregate/petriqueue.go:76-102 | after a successful FinishGraph exactly that graph leaves its level, and Act continues with the zero signal on the rest, appending its calls |
| Scenarios.FifoEnqueueDequeue | pkg/petri/primitives/queue/queue_test.go:10-27 | enqueue a, b; dequeue gives a, b, then not-found |
| Scenarios.PriorityPushPeekPop | pkg/petri/primitives/priority/queue_test.go:11-34 | push at 1 then 2; Peek reports the level-2 item at level 2; Pop gives it, then the level-1 item, then not-found |
| Scenarios.PriorityPopPriority | pkg/petri/primitives/priority/queue_test.go:36-54 | push at 3 then 1; PopPriority(1) gives the level-1 item, again finds nothing, PopPriority(3) gives the level-3 item |
| Scenarios.PriorityEmptyPeekPop | pkg/petri/primitives/priority/queue_test.go:56-64 | on a fresh queue Peek and Pop find nothing |
| Scenarios.GraphActMoves | pkg/petri/primitives/graph/graph_test.go:126-156 | a started graph with one out-edge moves to its destination without error |
| Scenarios.OnStartThenFinish | pkg/petri/primitives/graph/graph_test.go:89-106 | on Start: on Start, not on Finish; on Finish: the other way round |
| Scenarios.StartGraphHandlerError | pkg/petri/primitives/graph/graph_test.go:108-124 | a failing graph-level HandleIn makes StartGraph fail with Current unset |
| Scenarios.TwoLevelsAdd | pkg/petri/aggregate/petriqueue_test.go:139-171 | graph1 at level 0 and then graph2 at level 1 are both started on adding, with the start calls of the expected trace |
| Scenarios.TwoLevelsFirstSignal | pkg/petri/aggregate/petriqueue_test.go:144-147 | the first signal moves only graph2, start to middle, with the expected calls |
| Scenarios.TwoLevelsSecondSignal | pkg/petri/aggregate/petriqueue_test.go:148-159 | the second signal finishes graph2, and the cascade drives graph1 with the zero signal to Finish and finishes it; the queue ends empty |
| Scenarios.TwoLevelsThirdSignal | pkg/petri/aggregate/petriqueue_test.go:173-178 | the third signal finds the queue empty and calls nothing |
| Scenarios.AddFirstGraph | pkg/petri/aggregate/petriqueue_test.go:114-118 | graph1 added to an empty orchestrator is started |
| Scenarios.OneLevelAdd | pkg/petri/aggregate/petriqueue_test.go:120-123 | graph2 added at the level graph1 holds is queued behind it without being started |
| Scenarios.OneLevelFirstSignal | pkg/petri/aggregate/petriqueue_test.go:95-106 | the first signal finishes graph1; the cascade starts graph2 and moves it with the zero signal |
| Scenarios.OneLevelSecondSignal | pkg/petri/aggregate/petriqueue_test.go:107-112 | the second signal finishes graph2 and the queue ends empty |
| Scenarios.DrainedAct | pkg/petri/aggregate/petriqueue_test.go:125-130 | Act on the empty orchestrator calls nothing and changes nothing |

## Left out

- The priority queue's mutex. The model is single-threaded, so Peek followed by PopPriority is atomic here. The race the engine allows between those two calls is therefore not modelled.
- Error message text and `fmt.Errorf` wrapping. Errors are an enum of kinds, one per failure site.
- Handler state. Handlers are pure functions of their identity and arguments. The tests' handlers, which append to a shared buffer, are represented by the event trace.
- ChooseTo and Handle return identifiers into the graph's own arena, not pointers. A handler that returns a nil transition or place, or a foreign transition or place object with a known identifier, is not modelled. The engine would dereference the nil; for a foreign transition it would call that object's Handle and check that object's destination set; for a foreign place it would move to that object.
- Integers are unbounded. The `priority > math.MaxInt` panic in `Push` can never fire and is left out.
- Lazy creation of a nil priority queue in `AddGraph` and `Act`. The orchestrator always holds a queue.
- `GetQueue` is a plain accessor. It is the `queue` field of `Scheduler.PetriQueue`.
- `Topology.GetTo` is the plain destination-set accessor, with a missing set read as empty. It has no contract of its own.
- `builder.go` (loading state through an external storage interface) and `piriqueue.go` (an older, conflicting declaration of the orchestrator) are not part of this model.
- JSON struct tags and persistence.
- Queued graphs are independent values. The engine queues pointers, and the caller keeps its own pointer to each graph. `Scheduler.Refresh` matches the engine only while each graph sits in the queue once and the caller does not change it while it is queued. A graph queued twice, or changed through the caller's pointer, is not modelled.
- `graph.go` names the field `handler` where the types declare `Handler`. It does so for the place at every place-handler call (in `StartGraph`, `FinishGraph` and `Act`), and for the transition at the `Handle` call in `Act`. The model reads both as the declared field.
- Scheduler.Act: the model does not state the depth bound of the recursion. It only proves that the cascade terminates, by the number of queued graphs.
- Scheduler.DriveHead: its own contract states only counts, the empty case, the missing-head case and the absence of pop-failed and identifier-mismatch. The soundness facts under the invariant are in `Scheduler.DriveHeadKeepsValid` and `Scheduler.DriveHeadCases`.

=== FILE: fifo.dfy ===
/**
  The slice-backed first-in first-out container used as the store of one
  priority level. The front of the queue is `elements[0]`.
 */
module Fifo {
  import opened Outcomes

  datatype Queue<T> = Queue(elements: seq<T>)

  /** The outcome of taking the front element: the element (None when the
      queue was empty) and the queue that remains. */
  datatype Dequeued<T> = Dequeued(item: Option<T>, queue: Queue<T>)

  function NewQueue<T>(): (q: Queue<T>)
    ensures IsEmpty(q)
  {
    Queue([])
  }

  /** True iff the queue is indistinguishable from a freshly created one. */
  predicate IsEmpty<T>(q: Queue<T>)
  {
    |q.elements| == 0
  }

  lemma IsEmptyIffFresh<T>(q: Queue<T>)
    ensures IsEmpty(q) <==> q == NewQueue()
  {
  }

  /** Appends at the back; the elements already queued keep their positions. */
  function Enqueue<T>(q: Queue<T>, x: T): (r: Queue<T>)
    ensures |r.elements| == |q.elements| + 1
    ensures r.elements[..|q.elements|] == q.elements
    ensures r.elements[|q.elements|] == x
  {
    Queue(q.elements + [x])
  }

  /** Alias of Enqueue. */
  function Push<T>(q: Queue<T>, x: T): (r: Queue<T>)
    ensures r == Enqueue(q, x)
  {
    Enqueue(q, x)
  }

  /** Removes the front element; on an empty queue reports not-found and
      leaves the queue as it was. */
  function Dequeue<T>(q: Queue<T>): (r: Dequeued<T>)
    ensures IsEmpty(q) <==> r.item.None?
    ensures IsEmpty(q) ==> r.queue == q
    ensures r.item.Some? ==> [r.item.value] + r.queue.elements == q.elements
  {
    if |q.elements| == 0 then Dequeued(None, q)
    else Dequeued(Some(q.elements[0]), Queue(q.elements[1..]))
  }

  /** Alias of Dequeue. */
  function Pop<T>(q: Queue<T>): (r: Dequeued<T>)
    ensures r == Dequeue(q)
  {
    Dequeue(q)
  }

  /** The element Dequeue would return, without removing it. */
  function Peek<T>(q: Queue<T>): (r: Option<T>)
    ensures r == Dequeue(q).item
  {
    if |q.elements| == 0 then None else Some(q.elements[0])
  }

  /** Dequeuing after an Enqueue: an empty queue hands back the new element,
      otherwise the old front leaves and the new element stays at the back. */
  lemma DequeueAfterEnqueue<T>(q: Queue<T>, x: T)
    ensures IsEmpty(q) ==> Dequeue(Enqueue(q, x)) == Dequeued(Some(x), NewQueue())
    ensures !IsEmpty(q) ==>
      Dequeue(Enqueue(q, x)) == Dequeued(Dequeue(q).item, Enqueue(Dequeue(q).queue, x))
  {
    if !IsEmpty(q) {
      assert q.elements[1..] + [x] == (q.elements + [x])[1..];
    }
  }

  /** Enqueues every element of `xs`, in order. */
  function EnqueueAll<T>(q: Queue<T>, xs: seq<T>): (r: Queue<T>)
    decreases |xs|
  {
    if xs == [] then q else EnqueueAll(Enqueue(q, xs[0]), xs[1..])
  }

  /** Dequeues until not-found and collects what came out, in order. */
  function Drain<T>(q: Queue<T>): (r: seq<T>)
    decreases |q.elements|
  {
    var d := Dequeue(q);
    if d.item.None? then [] else [d.item.value] + Drain(d.queue)
  }

  lemma {:induction false} EnqueueAllAppends<T>(q: Queue<T>, xs: seq<T>)
    ensures EnqueueAll(q, xs).elements == q.elements + xs
    decreases |xs|
  {
    if xs != [] {
      EnqueueAllAppends(Enqueue(q, xs[0]), xs[1..]);
      assert (q.elements + [xs[0]]) + xs[1..] == q.elements + xs;
    }
  }

  lemma {:induction false} DrainYieldsContents<T>(q: Queue<T>)
    ensures Drain(q) == q.elements
    decreases |q.elements|
  {
    if |q.elements| > 0 {
      DrainYieldsContents(Dequeue(q).queue);
    }
  }

  /** First in, first out: whatever is enqueued into a fresh queue comes
      back out by repeated Dequeue in the same order, then not-found. */
  lemma FirstInFirstOut<T>(xs: seq<T>)
    ensures Drain(EnqueueAll(NewQueue(), xs)) == xs
  {
    EnqueueAllAppends(NewQueue<T>(), xs);
    DrainYieldsContents(EnqueueAll(NewQueue<T>(), xs));
  }
}

=== FILE: outcomes.dfy ===
/**
  Shared vocabulary: optional values, callback outcomes and the kinds of
  error the scheduler reports. Error messages and `fmt.Errorf` wrapping are
  not modelled; each distinct error site of the engine gets its own kind.
 */
module Outcomes {

  /** A value that may be absent (a nil pointer or a `false` found-flag). */
  datatype Option<T> = None | Some(value: T)

  /** What a value-producing callback (ChooseTo, Handle) returns. */
  datatype Result<T> = Ok(value: T) | Err

  /** What a notification callback (HandleIn, HandleOut) returns. */
  datatype Status = Pass | Fail

  datatype Error =
    // StartGraph: the graph-level HandleIn failed
    | GraphInFailed
    // StartGraph: the start place's HandleIn(nil) failed
    | StartPlaceInFailed
    // Act: the current place's ChooseTo failed
    | ChooseToFailed
    // Act: the chosen transition is not an out-edge of the current place
    | ForbiddenTransition
    // Act: the transition's Handle failed
    | HandleFailed
    // Act: the computed place is not a destination of the transition
    | ForbiddenPlace
    // Act: the current place's HandleOut(next) failed
    | PlaceOutFailed
    // Act: the next place's HandleIn(old) failed, after Current moved
    | PlaceInFailed
    // FinishGraph: the current place's HandleOut(nil) failed
    | FinishPlaceOutFailed
    // FinishGraph: the graph-level HandleOut failed
    | GraphOutFailed
    // orchestrator: Peek found nothing in a non-empty queue
    | PeekFailed
    // orchestrator: PopPriority found nothing at the peeked level
    | PopFailed
    // orchestrator: the popped graph is not the one just finished
    | IdMismatch
}

=== FILE: petri.dfy ===
/**
  A workflow graph instance: a topology, its Start and Finish places and
  the nullable Current place, walked one transition per signal under
  caller-supplied decision logic.

  Places and transitions live in an arena keyed by identifier. The user's
  handler objects are pure functions of the handler identity and their
  arguments (`Callbacks`); every invocation is recorded as an `Event`, so
  the order in which the engine calls them can be stated.
 */
module Petri {
  import opened Outcomes
  import opened Topology

  /** The places and transitions of one topology, keyed by identifier. */
  datatype Net = Net(places: map<Id, Place>, transitions: map<Id, Transition>)

  /** A graph instance. `current == None` means "not started". */
  datatype Graph = Graph(
    id: Id,
    handler: HandlerId,
    net: Net,
    start: Id,
    finish: Id,
    current: Option<Id>)

  /** The behaviour of the user's handlers, selected by handler identity:
      graph-level HandleIn/HandleOut, place HandleIn(from)/HandleOut(to)
      (None for nil), place ChooseTo(signal) naming a transition, and
      transition Handle(from place, signal) naming a place. */
  datatype Callbacks<!S> = Callbacks(
    graphIn: HandlerId -> Status,
    graphOut: HandlerId -> Status,
    placeIn: (HandlerId, Option<Id>) -> Status,
    placeOut: (HandlerId, Option<Id>) -> Status,
    chooseTo: (HandlerId, S) -> Result<Id>,
    handle: (HandlerId, Id, S) -> Result<Id>)

  /** One handler invocation, tagged with the graph it was made for. */
  datatype Event<S> =
    | GraphIn(graph: Id)
    | PlaceIn(graph: Id, place: Id, from: Option<Id>)
    | ChooseTo(graph: Id, place: Id, signal: S)
    | Handle(graph: Id, transition: Id, source: Id, signal: S)
    | PlaceOut(graph: Id, place: Id, to: Option<Id>)
    | GraphOut(graph: Id)

  /** The graph after an operation, the handler calls it made, and the
      error it returned, if any. */
  datatype Run<S> = Run(graph: Graph, events: seq<Event<S>>, error: Option<Error>)

  /** Every arena entry is stored under its own identifier and every edge
      names an entry of the arena. */
  predicate WellLinked(net: Net)
  {
    && (forall k | k in net.places ::
          net.places[k].id == k && OutEdges(net.places[k]) <= net.transitions.Keys)
    && (forall k | k in net.transitions ::
          net.transitions[k].id == k && GetTo(net.transitions[k]) <= net.places.Keys)
  }

  /** The graph's place references all resolve (no nil Start or Finish, no
      dangling Current) and its topology is well linked. */
  predicate Valid(g: Graph)
  {
    && g.start in g.net.places
    && g.finish in g.net.places
    && (g.current.Some? ==> g.current.value in g.net.places)
    && WellLinked(g.net)
  }

  /** Only the Current place differs between the two graphs. */
  predicate SameTopology(a: Graph, b: Graph)
  {
    a.id == b.id && a.handler == b.handler && a.net == b.net
    && a.start == b.start && a.finish == b.finish
  }

  /** `b` is one legal move away from `a`: some out-edge of `a` is a
      transition whose destination set holds `b`. */
  predicate Edge(net: Net, a: Id, b: Id)
  {
    && a in net.places
    && exists t :: t in OutEdges(net.places[a]) && t in net.transitions
                   && b in GetTo(net.transitions[t])
  }

  /** Where an Act takes its step from: Current, or Start once the graph
      has been started by the Act itself. */
  function Entry(g: Graph): Id
  {
    if g.current.Some? then g.current.value else g.start
  }

  function SetStartNode(g: Graph, p: Id): (r: Graph)
    ensures r.start == p
    ensures r.id == g.id && r.net == g.net && r.finish == g.finish && r.current == g.current
    ensures r.handler == g.handler
  {
    g.(start := p)
  }

  function SetFinishNode(g: Graph, p: Id): (r: Graph)
    ensures r.finish == p
    ensures r.id == g.id && r.net == g.net && r.start == g.start && r.current == g.current
    ensures r.handler == g.handler
  {
    g.(finish := p)
  }

  function SetCurrentNode(g: Graph, p: Id): (r: Graph)
    ensures r.current == Some(p)
    ensures SameTopology(r, g)
  {
    g.(current := Some(p))
  }

  /** Start's identifier against Current's; the engine dereferences
      Current, so it must be set. */
  function IsOnStart(g: Graph): (r: bool)
    requires g.current.Some? && g.current.value in g.net.places && g.start in g.net.places
    ensures WellLinked(g.net) ==> (r <==> g.current == Some(g.start))
  {
    g.net.places[g.start].id == g.net.places[g.current.value].id
  }

  /** Finish's identifier against Current's; Current must be set. */
  function IsOnFinish(g: Graph): (r: bool)
    requires g.current.Some? && g.current.value in g.net.places && g.finish in g.net.places
    ensures WellLinked(g.net) ==> (r <==> g.current == Some(g.finish))
  {
    g.net.places[g.finish].id == g.net.places[g.current.value].id
  }

  /** Graph-level HandleIn, then Current := Start and Start's HandleIn(nil).
      A graph-level failure leaves the graph untouched; a failure of the
      start place leaves it on Start. */
  function StartGraph<S>(g: Graph, cb: Callbacks<S>): (r: Run<S>)
    requires g.start in g.net.places
    ensures SameTopology(r.graph, g)
    ensures r.error == Some(GraphInFailed) <==> cb.graphIn(g.handler) == Fail
    ensures r.error == Some(GraphInFailed) ==> r.graph == g && r.events == [GraphIn(g.id)]
    ensures r.error != Some(GraphInFailed) ==>
      && r.graph.current == Some(g.start)
      && r.events == [GraphIn(g.id), PlaceIn(g.id, g.start, None)]
      && (r.error == Some(StartPlaceInFailed)
          <==> cb.placeIn(g.net.places[g.start].handler, None) == Fail)
    ensures r.error in {None, Some(GraphInFailed), Some(StartPlaceInFailed)}
  {
    if cb.graphIn(g.handler) == Fail then
      Run(g, [GraphIn(g.id)], Some(GraphInFailed))
    else
      var started := g.(current := Some(g.start));
      var events := [GraphIn(g.id), PlaceIn(g.id, g.start, None)];
      if cb.placeIn(g.net.places[g.start].handler, None) == Fail then
        Run(started, events, Some(StartPlaceInFailed))
      else
        Run(started, events, None)
  }

  /** The errors after which Act leaves Current where the step began. */
  predicate Refused(e: Option<Error>)
  {
    e in {Some(ChooseToFailed), Some(ForbiddenTransition), Some(HandleFailed),
          Some(ForbiddenPlace), Some(PlaceOutFailed)}
  }

  /** One step: auto-start if needed, ChooseTo, check the transition
      against Current's out-edges, Handle, check the place against the
      transition's destinations, HandleOut(next) on Current, move, and
      HandleIn(old) on the new Current. */
  function Act<S>(g: Graph, signal: S, cb: Callbacks<S>): (r: Run<S>)
    requires Valid(g)
    ensures Valid(r.graph) && SameTopology(r.graph, g)
    ensures r.error == Some(GraphInFailed) ==> g.current.None? && r.graph == g
    ensures r.error == Some(StartPlaceInFailed) ==>
      g.current.None? && r.graph.current == Some(g.start)
    ensures Refused(r.error) ==> r.graph.current == Some(Entry(g))
    ensures r.error.None? || r.error == Some(PlaceInFailed) ==>
      r.graph.current.Some? && Edge(g.net, Entry(g), r.graph.current.value)
    ensures r.error !in {Some(FinishPlaceOutFailed), Some(GraphOutFailed),
                         Some(PeekFailed), Some(PopFailed), Some(IdMismatch)}
  {
    var begin := if g.current.None? then StartGraph(g, cb) else Run(g, [], None);
    if begin.error.Some? then begin
    else
      var from := begin.graph.current.value;
      var here := g.net.places[from];
      var chosen := begin.events + [ChooseTo(g.id, from, signal)];
      match cb.chooseTo(here.handler, signal)
      case Err => Run(begin.graph, chosen, Some(ChooseToFailed))
      case Ok(tid) =>
        if tid !in OutEdges(here) then Run(begin.graph, chosen, Some(ForbiddenTransition))
        else
          var t := g.net.transitions[tid];
          var handled := chosen + [Handle(g.id, tid, from, signal)];
          match cb.handle(t.handler, from, signal)
          case Err => Run(begin.graph, handled, Some(HandleFailed))
          case Ok(pid) =>
            if pid !in GetTo(t) then Run(begin.graph, handled, Some(ForbiddenPlace))
            else
              var left := handled + [PlaceOut(g.id, from, Some(pid))];
              if cb.placeOut(here.handler, Some(pid)) == Fail then
                Run(begin.graph, left, Some(PlaceOutFailed))
              else
                var moved := begin.graph.(current := Some(pid));
                var entered := left + [PlaceIn(g.id, pid, Some(from))];
                if cb.placeIn(g.net.places[pid].handler, Some(from)) == Fail then
                  Run(moved, entered, Some(PlaceInFailed))
                else
                  Run(moved, entered, None)
  }

  /** Current's HandleOut(nil), then the graph-level HandleOut; stops at the
      first failure and never moves Current. */
  function FinishGraph<S>(g: Graph, cb: Callbacks<S>): (r: Run<S>)
    requires g.current.Some? && g.current.value in g.net.places
    ensures r.graph == g
    ensures |r.events| >= 1 && r.events[0] == PlaceOut(g.id, g.current.value, None)
    ensures r.error == Some(FinishPlaceOutFailed)
      <==> cb.placeOut(g.net.places[g.current.value].handler, None) == Fail
    ensures r.error == Some(FinishPlaceOutFailed) <==> |r.events| == 1
    ensures |r.events| == 2 ==>
      (r.events[1] == GraphOut(g.id)
       && (r.error == Some(GraphOutFailed) <==> cb.graphOut(g.handler) == Fail))
    ensures r.error in {None, Some(FinishPlaceOutFailed), Some(GraphOutFailed)}
    ensures |r.events| <= 2
    ensures |r.events| == 2 ==>
      r.error == (if cb.graphOut(g.handler) == Fail then Some(GraphOutFailed) else None)
  {
    var cur := g.current.value;
    if cb.placeOut(g.net.places[cur].handler, None) == Fail then
      Run(g, [PlaceOut(g.id, cur, None)], Some(FinishPlaceOutFailed))
    else if cb.graphOut(g.handler) == Fail then
      Run(g, [PlaceOut(g.id, cur, None), GraphOut(g.id)], Some(GraphOutFailed))
    else
      Run(g, [PlaceOut(g.id, cur, None), GraphOut(g.id)], None)
  }

  /** An unstarted graph is started first: when the start succeeds, the
      step is exactly the step of the started graph, after the start calls. */
  lemma ActAutoStarts<S>(g: Graph, signal: S, cb: Callbacks<S>)
    requires Valid(g) && g.current.None?
    ensures var b := StartGraph(g, cb);
      b.error.None? ==>
        var s := Act(b.graph, signal, cb);
        Act(g, signal, cb) == Run(s.graph, b.events + s.events, s.error)
  {
  }

  /** An unstarted graph whose start fails reports exactly the start's
      calls and error, and stays where it was. */
  lemma ActStartFails<S>(g: Graph, signal: S, cb: Callbacks<S>)
    requires Valid(g) && g.current.None?
    ensures StartGraph(g, cb).error.Some? ==> Act(g, signal, cb) == StartGraph(g, cb)
  {
  }

  /** For a started graph, each refusal happens exactly when its handler
      refuses, and a move lands on the place Handle returned: ChooseTo on
      the current place picks the transition, which must be an out-edge;
      Handle on it picks the place, which must be one of its destinations;
      HandleOut on the current place may still refuse; HandleIn on the new
      place decides between PlaceInFailed and success. */
  lemma StepFollowsHandlers<S>(g: Graph, signal: S, cb: Callbacks<S>)
    requires Valid(g) && g.current.Some?
    ensures var from := g.current.value;
      var here := g.net.places[from];
      var chosen := cb.chooseTo(here.handler, signal);
      var r := Act(g, signal, cb);
      && (r.error == Some(ChooseToFailed) <==> chosen.Err?)
      && (chosen.Ok? ==>
            && (r.error == Some(ForbiddenTransition) <==> chosen.value !in OutEdges(here))
            && (chosen.value in OutEdges(here) ==>
                  var t := g.net.transitions[chosen.value];
                  var handled := cb.handle(t.handler, from, signal);
                  && (r.error == Some(HandleFailed) <==> handled.Err?)
                  && (handled.Ok? ==>
                        && (r.error == Some(ForbiddenPlace) <==> handled.value !in GetTo(t))
                        && (handled.value in GetTo(t) ==>
                              var to := handled.value;
                              && (r.error == Some(PlaceOutFailed) <==> cb.placeOut(here.handler, Some(to)) == Fail)
                              && (cb.placeOut(here.handler, Some(to)) == Pass ==>
                                    && r.graph.current == Some(to)
                                    && (r.error == Some(PlaceInFailed)
                                        <==> cb.placeIn(g.net.places[to].handler, Some(from)) == Fail)
                                    && (r.error.None?
                                        <==> cb.placeIn(g.net.places[to].handler, Some(from)) == Pass))))))
  {
  }

  /** A refused step stops at the refusing call: nothing after it runs and
      the graph is left as it was. ChooseTo's failure and a forbidden
      transition leave only the ChooseTo call; Handle's failure and a
      forbidden place add the Handle call on the chosen transition; a
      failed HandleOut adds the HandleOut call towards Handle's place. */
  lemma RefusalTraces<S>(g: Graph, signal: S, cb: Callbacks<S>)
    requires Valid(g) && g.current.Some?
    ensures var from := g.current.value;
      var here := g.net.places[from];
      var chosen := cb.chooseTo(here.handler, signal);
      var r := Act(g, signal, cb);
      && (Refused(r.error) ==> r.graph == g)
      && (r.error == Some(ChooseToFailed) || r.error == Some(ForbiddenTransition) ==>
            r.events == [ChooseTo(g.id, from, signal)])
      && (r.error == Some(HandleFailed) || r.error == Some(ForbiddenPlace) ==>
            && chosen.Ok?
            && r.events == [ChooseTo(g.id, from, signal), Handle(g.id, chosen.value, from, signal)])
      && (r.error == Some(PlaceOutFailed) ==>
            && chosen.Ok? && chosen.value in OutEdges(here)
            && var handled := cb.handle(g.net.transitions[chosen.value].handler, from, signal);
            && handled.Ok?
            && r.events == [ChooseTo(g.id, from, signal), Handle(g.id, chosen.value, from, signal),
                            PlaceOut(g.id, from, Some(handled.value))])
  {
  }

  /** The four calls of a step from a started graph that ends in the next
      place. */
  ghost predicate MovedInOrder<S>(g: Graph, signal: S, cb: Callbacks<S>, r: Run<S>, k: nat)
    requires Valid(g) && g.current.Some?
  {
    var from := g.current.value;
    && r.graph.current.Some?
    && var to := r.graph.current.value;
    && |r.events| == k + 4
    && r.events[k] == ChooseTo(g.id, from, signal)
    && r.events[k + 1].Handle?
    && r.events[k + 1] == Handle(g.id, r.events[k + 1].transition, from, signal)
    && cb.chooseTo(g.net.places[from].handler, signal) == Ok(r.events[k + 1].transition)
    && r.events[k + 1].transition in OutEdges(g.net.places[from])
    && cb.handle(g.net.transitions[r.events[k + 1].transition].handler, from, signal) == Ok(to)
    && to in GetTo(g.net.transitions[r.events[k + 1].transition])
    && r.events[k + 2] == PlaceOut(g.id, from, Some(to))
    && r.events[k + 3] == PlaceIn(g.id, to, Some(from))
  }

  lemma StartedCallOrder<S>(g: Graph, signal: S, cb: Callbacks<S>)
    requires Valid(g) && g.current.Some?
    ensures var r := Act(g, signal, cb);
      r.error.None? || r.error == Some(PlaceInFailed) ==> MovedInOrder(g, signal, cb, r, 0)
  {
  }

  /** The call order of a step that ends in the next place: (for an
      unstarted graph, the start calls, then) ChooseTo on the old place,
      Handle on the transition ChooseTo returned, an out-edge of the old
      place, HandleOut on the old place towards the new one, HandleIn on the
      new one from the old one; the new place is the one Handle returned, a
      destination of that transition. */
  lemma ActCallOrder<S>(g: Graph, signal: S, cb: Callbacks<S>)
    requires Valid(g)
    ensures var r := Act(g, signal, cb);
      r.error.None? || r.error == Some(PlaceInFailed) ==>
        var from := Entry(g);
        var to := r.graph.current.value;
        var k := |r.events| - 4;
        && k == (if g.current.None? then 2 else 0)
        && r.events[..k] == (if g.current.None? then StartGraph(g, cb).events else [])
        && r.events[k] == ChooseTo(g.id, from, signal)
        && r.events[k + 1].Handle?
        && r.events[k + 1] == Handle(g.id, r.events[k + 1].transition, from, signal)
        && cb.chooseTo(g.net.places[from].handler, signal) == Ok(r.events[k + 1].transition)
        && r.events[k + 1].transition in OutEdges(g.net.places[from])
        && cb.handle(g.net.transitions[r.events[k + 1].transition].handler, from, signal) == Ok(to)
        && to in GetTo(g.net.transitions[r.events[k + 1].transition])
        && r.events[k + 2] == PlaceOut(g.id, from, Some(to))
        && r.events[k + 3] == PlaceIn(g.id, to, Some(from))
  {
    var r := Act(g, signal, cb);
    if r.error.None? || r.error == Some(PlaceInFailed) {
      if g.current.Some? {
        StartedCallOrder(g, signal, cb);
      } else {
        var b := StartGraph(g, cb);
        ActAutoStarts(g, signal, cb);
        StartedCallOrder(b.graph, signal, cb);
        var s := Act(b.graph, signal, cb);
        assert MovedInOrder(b.graph, signal, cb, s, 0);
        assert r.events == b.events + s.events;
        assert r.events[..2] == b.events;
      }
    }
  }

  /** A sequence of places each one legal move from the one before. */
  ghost predicate IsWalk(net: Net, w: seq<Id>)
  {
    forall i | 0 <= i < |w| - 1 :: Edge(net, w[i], w[i + 1])
  }

  ghost predicate Reachable(net: Net, a: Id, b: Id)
  {
    exists w :: IsWalk(net, w) && |w| > 0 && w[0] == a && w[|w| - 1] == b
  }

  /** Current, once set, was reached from Start through validated moves. */
  ghost predicate CurrentReachable(g: Graph)
  {
    g.current.Some? ==> Reachable(g.net, g.start, g.current.value)
  }

  lemma WalkExtends(net: Net, w: seq<Id>, b: Id)
    requires IsWalk(net, w) && |w| > 0 && Edge(net, w[|w| - 1], b)
    ensures IsWalk(net, w + [b])
  {
    var w' := w + [b];
    forall i | 0 <= i < |w'| - 1
      ensures Edge(net, w'[i], w'[i + 1])
    {
      if i < |w| - 1 {
        assert w'[i] == w[i] && w'[i + 1] == w[i + 1];
      }
    }
  }

  /** A step that either leaves Current where it was, puts it on Start, or
      moves it along an edge keeps Current reachable from Start. */
  lemma StepKeepsCurrentReachable(g: Graph, h: Graph)
    requires Valid(g) && CurrentReachable(g) && SameTopology(h, g)
    requires || h.current == g.current
             || h.current == Some(g.start)
             || (h.current.Some? && Edge(g.net, Entry(g), h.current.value))
    ensures CurrentReachable(h)
  {
    var from := Entry(g);
    var w: seq<Id>;
    if g.current.None? {
      w := [g.start];
    } else {
      w :| IsWalk(g.net, w) && |w| > 0 && w[0] == g.start && w[|w| - 1] == from;
    }
    if h.current.Some? && h.current != g.current && h.current != Some(g.start) {
      var to := h.current.value;
      WalkExtends(g.net, w, to);
      var w' := w + [to];
      assert w'[0] == g.start && w'[|w'| - 1] == to;
    } else if h.current == Some(g.start) {
      assert IsWalk(g.net, [g.start]);
    }
  }

  /** Act only ever moves Current along validated edges, so Current stays
      reachable from Start. */
  lemma ActKeepsCurrentReachable<S>(g: Graph, signal: S, cb: Callbacks<S>)
    requires Valid(g) && CurrentReachable(g)
    ensures CurrentReachable(Act(g, signal, cb).graph)
  {
    var r := Act(g, signal, cb);
    assert Refused(r.error) ==> r.graph.current == Some(Entry(g));
    StepKeepsCurrentReachable(g, r.graph);
  }
}

=== FILE: priority.dfy ===
/**
  The level-keyed priority queue: a map from integer level to a FIFO of
  items, plus a cached maximum level. Higher levels are served first,
  FIFO order within a level.

  The engine's mutex is not modelled: every operation here is one atomic
  step of a single-threaded caller.
 */
module Priority {
  import opened Outcomes
  import Fifo

  datatype PriorityQueue<T> = PriorityQueue(levels: map<int, Fifo.Queue<T>>, maxPriority: int)

  /** What Peek reports: the front item and the level it was found at. */
  datatype Head<T> = Head(item: T, level: int)

  /** What PopPriority reports: the removed item (None for not-found) and
      the queue that remains. */
  datatype Popped<T> = Popped(item: Option<T>, queue: PriorityQueue<T>)

  predicate IsGreatest(k: int, s: set<int>)
  {
    k in s && forall j | j in s :: j <= k
  }

  /** The representation invariant: every present level holds at least one
      item, and the cached maximum is the greatest present level, or 0 when
      no level is present. */
  predicate Valid<T>(q: PriorityQueue<T>)
  {
    && (forall l | l in q.levels :: |q.levels[l].elements| > 0)
    && (if q.levels == map[] then q.maxPriority == 0
        else IsGreatest(q.maxPriority, q.levels.Keys))
  }

  /** The number of items held, over all levels. */
  ghost function Count<T>(m: map<int, Fifo.Queue<T>>): nat
    decreases |m.Keys|
  {
    if m == map[] then 0
    else
      HasMember(m.Keys);
      var k :| k in m.Keys;
      assert (m - {k}).Keys == m.Keys - {k};
      |m[k].elements| + Count(m - {k})
  }

  lemma {:induction false} CountRemove<T>(m: map<int, Fifo.Queue<T>>, k: int)
    requires k in m
    ensures Count(m) == |m[k].elements| + Count(m - {k})
    decreases |m.Keys|
  {
    var j :| j in m && Count(m) == |m[j].elements| + Count(m - {j});
    if j != k {
      assert (m - {j}).Keys == m.Keys - {j};
      assert (m - {k}).Keys == m.Keys - {k};
      CountRemove(m - {j}, k);
      CountRemove(m - {k}, j);
      assert m - {j} - {k} == m - {k} - {j};
    }
  }

  /** Replacing one level's FIFO changes the count by the size difference. */
  lemma CountUpdate<T>(m: map<int, Fifo.Queue<T>>, k: int, v: Fifo.Queue<T>)
    ensures Count(m[k := v]) == |v.elements| + Count(m - {k})
    ensures k in m ==> Count(m[k := v]) + |m[k].elements| == Count(m) + |v.elements|
  {
    CountRemove(m[k := v], k);
    assert m[k := v] - {k} == m - {k};
    if k in m {
      CountRemove(m, k);
    }
  }

  /** A witness for `:|` on a non-empty set of levels. */
  lemma HasMember(s: set<int>)
    requires s != {}
    ensures exists x :: x in s
  {
    if forall x :: x !in s {
      assert false;
    }
  }

  lemma {:induction false} GreatestExists(s: set<int>)
    requires s != {}
    ensures exists k :: IsGreatest(k, s)
    decreases |s|
  {
    HasMember(s);
    var x :| x in s;
    if s != {x} {
      GreatestExists(s - {x});
      var k :| IsGreatest(k, s - {x});
      var g := if k < x then x else k;
      forall j | j in s
        ensures j <= g
      {
        if j != x {
          assert j in s - {x};
        }
      }
      assert IsGreatest(g, s);
    } else {
      assert IsGreatest(x, s);
    }
  }

  /** The greatest key of the map, or 0 for an empty map. */
  function CalculateMax<T>(m: map<int, Fifo.Queue<T>>): (r: int)
    ensures m == map[] ==> r == 0
    ensures m != map[] ==> IsGreatest(r, m.Keys)
  {
    if |m| == 0 then 0
    else
      GreatestExists(m.Keys);
      var k :| IsGreatest(k, m.Keys);
      k
  }

  /** The engine's scan over the keys, in the order the map yields them:
      the first key seeds the running maximum, and each later key replaces
      it when greater. `started` and `maxKey` are the loop's state; `keys`
      are the keys not yet visited. */
  function ScanMax(keys: seq<int>, started: bool, maxKey: int): (r: int)
    ensures forall i | 0 <= i < |keys| :: keys[i] <= r
    ensures started ==> maxKey <= r && (r == maxKey || r in keys)
    ensures !started && keys == [] ==> r == maxKey
    ensures !started && keys != [] ==> r in keys
    decreases |keys|
  {
    if keys == [] then maxKey
    else
      var k := keys[0];
      var next := if !started || maxKey < k then k else maxKey;
      var r := ScanMax(keys[1..], true, next);
      assert forall i | 0 < i < |keys| :: keys[i] == keys[1..][i - 1];
      r
  }

  /** Whatever order the map yields its keys in, the scan finds the same
      level CalculateMax names. */
  lemma ScanMaxIsCalculateMax<T>(m: map<int, Fifo.Queue<T>>, keys: seq<int>)
    requires forall k :: k in m <==> k in keys
    ensures (if keys == [] then 0 else ScanMax(keys, false, 0)) == CalculateMax(m)
  {
    if keys != [] {
      assert keys[0] in keys;
      var r := ScanMax(keys, false, 0);
      forall j | j in m.Keys
        ensures j <= r
      {
        assert j in keys;
      }
    }
  }

  function NewPriorityQueue<T>(): (q: PriorityQueue<T>)
    ensures Valid(q) && q.levels == map[] && Count(q.levels) == 0
  {
    PriorityQueue(map[], 0)
  }

  /** The front item of the level at the cached maximum, with that level;
      not-found when the queue is empty or the cached level is absent. */
  function Peek<T>(q: PriorityQueue<T>): (r: Option<Head<T>>)
    ensures r.Some? ==>
      && r.value.level in q.levels
      && r.value.level == q.maxPriority
      && |q.levels[r.value.level].elements| > 0
      && r.value.item == q.levels[r.value.level].elements[0]
    ensures Valid(q) ==> (r.Some? <==> q.levels != map[])
    ensures Valid(q) && r.Some? ==> IsGreatest(r.value.level, q.levels.Keys)
  {
    if |q.levels| == 0 then None
    else if q.maxPriority !in q.levels then None
    else
      match Fifo.Peek(q.levels[q.maxPriority])
      case None => None
      case Some(x) => Some(Head(x, q.maxPriority))
  }

  /** Appends `x` at the back of its level, creating the level when absent
      (and raising the cached maximum when the new level exceeds it). */
  function Push<T>(q: PriorityQueue<T>, level: int, x: T): (r: PriorityQueue<T>)
    ensures level in r.levels
    ensures r.levels[level].elements
            == (if level in q.levels then q.levels[level].elements else []) + [x]
    ensures forall l | l != level :: (l in r.levels <==> l in q.levels)
    ensures forall l | l in q.levels && l != level :: r.levels[l] == q.levels[l]
    ensures Count(r.levels) == Count(q.levels) + 1
    ensures Valid(q) && (level >= 0 || q.levels != map[]) ==> Valid(r)
  {
    var fifo := if level in q.levels then q.levels[level] else Fifo.NewQueue();
    var r := PriorityQueue(
      q.levels[level := Fifo.Push(fifo, x)],
      if level !in q.levels && level > q.maxPriority then level else q.maxPriority);
    CountUpdate(q.levels, level, Fifo.Push(fifo, x));
    assert level !in q.levels ==> q.levels - {level} == q.levels;
    r
  }

  /** Drops a level and, when it held the cached maximum, recomputes the
      maximum from the levels that remain. */
  function Evict<T>(q: PriorityQueue<T>, level: int): (r: PriorityQueue<T>)
    ensures r.levels == q.levels - {level}
    ensures (forall l | l in q.levels && l != level :: |q.levels[l].elements| > 0)
            && (q.levels != map[] ==> IsGreatest(q.maxPriority, q.levels.Keys))
            && (q.levels == map[] ==> q.maxPriority == 0)
            ==> Valid(r)
  {
    var rest := q.levels - {level};
    assert q.levels != map[] && IsGreatest(q.maxPriority, q.levels.Keys) && level != q.maxPriority
      ==> q.maxPriority in rest;
    PriorityQueue(rest, if level == q.maxPriority then CalculateMax(rest) else q.maxPriority)
  }

  /** Removes and returns the front item of `level`. A level left empty is
      deleted; a level found already empty is deleted and reported as
      not-found; an absent level is not-found and nothing changes. */
  function PopPriority<T>(q: PriorityQueue<T>, level: int): (r: Popped<T>)
    ensures level !in q.levels ==> r == Popped(None, q)
    ensures level in q.levels && |q.levels[level].elements| == 0 ==>
      r.item.None? && r.queue.levels == q.levels - {level}
    ensures level in q.levels && |q.levels[level].elements| > 0 ==>
      && r.item == Some(q.levels[level].elements[0])
      && (|q.levels[level].elements| == 1 ==> r.queue.levels == q.levels - {level})
      && (|q.levels[level].elements| > 1 ==>
            r.queue.levels == q.levels[level := Fifo.Queue(q.levels[level].elements[1..])]
            && r.queue.maxPriority == q.maxPriority)
    ensures Count(r.queue.levels) + (if r.item.Some? then 1 else 0) == Count(q.levels)
    ensures Valid(q) ==> Valid(r.queue)
  {
    if level !in q.levels then Popped(None, q)
    else
      var d := Fifo.Pop(q.levels[level]);
      CountRemove(q.levels, level);
      if d.item.None? then
        Popped(None, Evict(q, level))
      else if Fifo.IsEmpty(d.queue) then
        Popped(d.item, Evict(q, level))
      else
        CountUpdate(q.levels, level, d.queue);
        Popped(d.item, q.(levels := q.levels[level := d.queue]))
  }

  /** PopPriority at the cached maximum level. */
  function Pop<T>(q: PriorityQueue<T>): (r: Popped<T>)
    ensures Valid(q) ==> Valid(r.queue)
    ensures Valid(q) ==> (r.item.Some? <==> q.levels != map[])
    ensures Valid(q) && q.levels != map[] ==> r.item == Some(Peek(q).value.item)
    ensures Count(r.queue.levels) + (if r.item.Some? then 1 else 0) == Count(q.levels)
  {
    PopPriority(q, q.maxPriority)
  }

  function GetMaxPriority<T>(q: PriorityQueue<T>): (r: int)
    ensures Valid(q) && q.levels != map[] ==> IsGreatest(r, q.levels.Keys)
    ensures Valid(q) && q.levels == map[] ==> r == 0
  {
    q.maxPriority
  }

  /** The number of distinct present levels (not of items). */
  function Len<T>(q: PriorityQueue<T>): (r: nat)
    ensures r == |q.levels.Keys|
    ensures r == 0 <==> q.levels == map[]
    ensures Valid(q) ==> r <= Count(q.levels)
  {
    LenAtMostCount(q);
    |q.levels|
  }

  /** Push adds a level to the count exactly when the level was absent. */
  lemma LenAfterPush<T>(q: PriorityQueue<T>, level: int, x: T)
    ensures Len(Push(q, level, x)) == Len(q) + (if level in q.levels then 0 else 1)
  {
    assert Push(q, level, x).levels.Keys == q.levels.Keys + {level};
  }

  /** PopPriority removes a level from the count exactly when it finds the
      level holding at most one item. */
  lemma LenAfterPopPriority<T>(q: PriorityQueue<T>, level: int)
    ensures Len(PopPriority(q, level).queue)
            == Len(q) - (if level in q.levels && |q.levels[level].elements| <= 1 then 1 else 0)
  {
    var r := PopPriority(q, level).queue;
    if level in q.levels {
      if |q.levels[level].elements| <= 1 {
        assert r.levels.Keys == q.levels.Keys - {level};
      } else {
        assert r.levels.Keys == q.levels.Keys;
      }
    }
  }

  lemma {:induction false} LevelsAtMostCount<T>(m: map<int, Fifo.Queue<T>>)
    requires forall l | l in m :: |m[l].elements| > 0
    ensures |m| <= Count(m)
    decreases |m.Keys|
  {
    if m != map[] {
      HasMember(m.Keys);
      var k :| k in m.Keys;
      CountRemove(m, k);
      assert (m - {k}).Keys == m.Keys - {k};
      LevelsAtMostCount(m - {k});
    }
  }

  lemma LenAtMostCount<T>(q: PriorityQueue<T>)
    ensures Valid(q) ==> |q.levels| <= Count(q.levels)
  {
    if Valid(q) {
      LevelsAtMostCount(q.levels);
    }
  }

  /** Pushing a negative level into an empty queue leaves the cached
      maximum at 0, where no level lives: the item is stored but Peek (and
      so Pop) no longer finds it. */
  lemma NegativeLevelHidesItem<T>(q: PriorityQueue<T>, level: int, x: T)
    requires Valid(q) && q.levels == map[] && level < 0
    ensures Push(q, level, x).levels != map[]
    ensures Peek(Push(q, level, x)).None?
    ensures Pop(Push(q, level, x)).item.None?
    ensures !Valid(Push(q, level, x))
  {
  }

  /** Pops until not-found and records each item with the level it came
      from. */
  function Drain<T>(q: PriorityQueue<T>): (r: seq<Head<T>>)
    requires Valid(q)
    decreases Count(q.levels)
  {
    if q.levels == map[] then []
    else
      var p := Pop(q);
      [Head(p.item.value, q.maxPriority)] + Drain(p.queue)
  }

  /** Everything drained comes from a level present in the queue, and there
      are exactly as many drained items as stored ones. */
  lemma {:induction false} DrainFromPresentLevels<T>(q: PriorityQueue<T>)
    requires Valid(q)
    ensures |Drain(q)| == Count(q.levels)
    ensures forall i | 0 <= i < |Drain(q)| :: Drain(q)[i].level in q.levels
    decreases Count(q.levels)
  {
    if q.levels != map[] {
      var p := Pop(q);
      DrainFromPresentLevels(p.queue);
      forall i | 0 < i < |Drain(q)|
        ensures Drain(q)[i].level in q.levels
      {
        assert Drain(q)[i] == Drain(p.queue)[i - 1];
      }
    }
  }

  /** Repeated Pop serves levels in descending order. */
  lemma {:induction false} DrainDescending<T>(q: PriorityQueue<T>)
    requires Valid(q)
    ensures forall i, j | 0 <= i < j < |Drain(q)| :: Drain(q)[i].level >= Drain(q)[j].level
    decreases Count(q.levels)
  {
    if q.levels != map[] {
      var p := Pop(q);
      DrainDescending(p.queue);
      DrainFromPresentLevels(p.queue);
      var d := Drain(q);
      forall i, j | 0 <= i < j < |d|
        ensures d[i].level >= d[j].level
      {
        assert d[j] == Drain(p.queue)[j - 1];
        if i > 0 {
          assert d[i] == Drain(p.queue)[i - 1];
        } else {
          assert d[j].level in p.queue.levels;
        }
      }
    }
  }

  /** The items of `s`, each tagged with `level`. */
  function AtLevel<T>(s: seq<T>, level: int): (r: seq<Head<T>>)
    ensures |r| == |s|
    ensures forall i | 0 <= i < |s| :: r[i] == Head(s[i], level)
  {
    seq(|s|, i requires 0 <= i < |s| => Head(s[i], level))
  }

  lemma AtLevelCons<T>(s: seq<T>, level: int)
    requires |s| > 0
    ensures AtLevel(s, level) == [Head(s[0], level)] + AtLevel(s[1..], level)
  {
  }

  lemma PrefixOfCons<T>(h: T, e: seq<T>, n: nat)
    requires 0 < n <= |e| + 1
    ensures ([h] + e)[..n] == [h] + e[..n - 1]
  {
  }

  lemma SuffixOfCons<T>(h: T, e: seq<T>, n: nat)
    requires 0 < n <= |e| + 1
    ensures ([h] + e)[n..] == e[n - 1..]
  {
  }

  /** One Pop off the top level, when that level holds more than one item,
      keeps the same top level with its front removed. */
  lemma PopTopKeepsLevel<T>(q: PriorityQueue<T>)
    requires Valid(q) && q.levels != map[]
    requires |q.levels[q.maxPriority].elements| > 1
    ensures Pop(q).queue.levels != map[]
    ensures Pop(q).queue.maxPriority == q.maxPriority
    ensures Pop(q).queue.levels[q.maxPriority].elements == q.levels[q.maxPriority].elements[1..]
  {
  }

  /** Within a level, Pop is FIFO: the top level is drained first, whole,
      in the order its items were pushed. */
  lemma {:induction false} DrainTopLevelFirst<T>(q: PriorityQueue<T>)
    requires Valid(q) && q.levels != map[]
    ensures |q.levels[q.maxPriority].elements| <= |Drain(q)|
    ensures Drain(q)[..|q.levels[q.maxPriority].elements|]
            == AtLevel(q.levels[q.maxPriority].elements, q.maxPriority)
    decreases Count(q.levels)
  {
    var m := q.maxPriority;
    var top := q.levels[m].elements;
    var rest := Pop(q).queue;
    var tail := Drain(rest);
    assert Drain(q) == [Head(top[0], m)] + tail;
    AtLevelCons(top, m);
    if |top| > 1 {
      PopTopKeepsLevel(q);
      DrainTopLevelFirst(rest);
      assert tail[..|top| - 1] == AtLevel(top[1..], m);
    }
    PrefixOfCons(Head(top[0], m), tail, |top|);
  }
  /** Popping the only item of the top level removes that level, as Evict
      does; popping one of several leaves the rest of the queue as it was. */
  lemma PopTopEvicts<T>(q: PriorityQueue<T>)
    requires Valid(q) && q.levels != map[]
    ensures |q.levels[q.maxPriority].elements| == 1 ==>
      Pop(q).queue == Evict(q, q.maxPriority)
    ensures |q.levels[q.maxPriority].elements| > 1 ==>
      Evict(Pop(q).queue, q.maxPriority) == Evict(q, q.maxPriority)
  {
    var m := q.maxPriority;
    var d := Fifo.Pop(q.levels[m]);
    if |q.levels[m].elements| == 1 {
      assert Fifo.IsEmpty(d.queue);
      assert Pop(q) == Popped(d.item, Evict(q, m));
    } else if |q.levels[m].elements| > 1 {
      assert Pop(q).queue == q.(levels := q.levels[m := d.queue]);
      assert Pop(q).queue.levels - {m} == q.levels - {m};
    }
  }

  /** Once the top level is drained, the rest comes out exactly as the queue
      without that level drains, so the order chains down level by level. */
  lemma {:induction false} DrainAfterTopLevel<T>(q: PriorityQueue<T>)
    requires Valid(q) && q.levels != map[]
    ensures |q.levels[q.maxPriority].elements| <= |Drain(q)|
    ensures Drain(q)[|q.levels[q.maxPriority].elements|..] == Drain(Evict(q, q.maxPriority))
    decreases Count(q.levels)
  {
    var m := q.maxPriority;
    var top := q.levels[m].elements;
    var rest := Pop(q).queue;
    var tail := Drain(rest);
    assert Drain(q) == [Head(top[0], m)] + tail;
    PopTopEvicts(q);
    if |top| > 1 {
      PopTopKeepsLevel(q);
      DrainAfterTopLevel(rest);
      assert Evict(rest, rest.maxPriority) == Evict(q, m);
    }
    SuffixOfCons(Head(top[0], m), tail, |top|);
  }
}

=== FILE: scenarios.dfy ===
/**
  Concrete runs of the model matching the engine's own unit tests: the
  FIFO and priority-queue orderings, a single graph step, and the
  two-level orchestrator run whose handler-call trace the tests check.
 */
module Scenarios {
  import opened Outcomes
  import opened Topology
  import Fifo
  import Priority
  import Petri
  import Scheduler

  /** Enqueue a then b; Dequeue gives a, then b, then not-found. */
  lemma FifoEnqueueDequeue(a: int, b: int)
    ensures var q := Fifo.Enqueue(Fifo.Enqueue(Fifo.NewQueue(), a), b);
      var d1 := Fifo.Dequeue(q);
      var d2 := Fifo.Dequeue(d1.queue);
      var d3 := Fifo.Dequeue(d2.queue);
      d1.item == Some(a) && d2.item == Some(b) && d3.item.None? && Fifo.IsEmpty(d3.queue)
  {
  }

  /** Push at 1 then at 2: Peek and Pop give the level-2 item, then the
      level-1 item, then not-found. */
  lemma PriorityPushPeekPop<T>(x1: T, x2: T)
    ensures var q := Priority.Push(Priority.Push(Priority.NewPriorityQueue(), 1, x1), 2, x2);
      var p1 := Priority.Pop(q);
      var p2 := Priority.Pop(p1.queue);
      var p3 := Priority.Pop(p2.queue);
      && Priority.Peek(q) == Some(Priority.Head(x2, 2))
      && p1.item == Some(x2) && p2.item == Some(x1) && p3.item.None?
  {
    var q0 := Priority.NewPriorityQueue<T>();
    var q := Priority.Push(Priority.Push(q0, 1, x1), 2, x2);
    assert Priority.Valid(q);
    assert q.levels.Keys == {1, 2};
    var p1 := Priority.Pop(q);
    assert p1.queue.levels.Keys == {1};
    var p2 := Priority.Pop(p1.queue);
    assert p2.queue.levels == map[];
  }

  /** Push at 3 then at 1: PopPriority(1) gives the level-1 item, a second
      PopPriority(1) finds nothing, PopPriority(3) gives the level-3 item. */
  lemma PriorityPopPriority<T>(x1: T, x2: T)
    ensures var q := Priority.Push(Priority.Push(Priority.NewPriorityQueue(), 3, x1), 1, x2);
      var p1 := Priority.PopPriority(q, 1);
      var p2 := Priority.PopPriority(p1.queue, 1);
      var p3 := Priority.PopPriority(p2.queue, 3);
      p1.item == Some(x2) && p2.item.None? && p3.item == Some(x1)
  {
    var q := Priority.Push(Priority.Push(Priority.NewPriorityQueue<T>(), 3, x1), 1, x2);
    assert q.levels.Keys == {1, 3};
    var p1 := Priority.PopPriority(q, 1);
    assert p1.queue.levels.Keys == {3};
  }

  /** A fresh priority queue: Peek and Pop both report not-found. */
  lemma PriorityEmptyPeekPop<T>()
    ensures Priority.Peek(Priority.NewPriorityQueue<T>()).None?
    ensures Priority.Pop(Priority.NewPriorityQueue<T>()).item.None?
  {
  }

  /** Handlers that always succeed: ChooseTo and Handle follow fixed
      tables keyed by handler identity. */
  function Scripted<S>(choose: map<HandlerId, Id>, target: map<HandlerId, Id>): Petri.Callbacks<S>
  {
    Petri.Callbacks(
      h => Pass,
      h => Pass,
      (h, from) => Pass,
      (h, to) => Pass,
      (h, s) => if h in choose then Ok(choose[h]) else Err,
      (h, from, s) => if h in target then Ok(target[h]) else Err)
  }

  /** start --T1--> finish, built the way the tests build it. */
  function OneHop(name: Id): Petri.Graph
  {
    var finish := NewPlace("finish", name + "/finish");
    var t1 := AddTo(NewTransition("T1", name + "/T1"), finish);
    var start := AddTransition(NewPlace("start", name + "/start"), t1);
    Petri.Graph(name, name, Petri.Net(map["start" := start, "finish" := finish], map["T1" := t1]),
                "start", "finish", None)
  }

  /** A started graph on `start` with one out-edge takes it on Act and ends
      on the transition's destination. */
  lemma GraphActMoves()
    ensures var g := Petri.SetCurrentNode(OneHop("g"), "start");
      var r := Petri.Act(g, 1, Scripted(map["g/start" := "T1"], map["g/T1" := "finish"]));
      r.error.None? && r.graph.current == Some("finish") && Petri.IsOnFinish(r.graph)
  {
    var g := Petri.SetCurrentNode(OneHop("g"), "start");
    assert "g" + "/start" == "g/start" && "g" + "/T1" == "g/T1";
    assert g.net.places["start"].handler == "g/start";
    assert OutEdges(g.net.places["start"]) == {"T1"};
    assert g.net.transitions["T1"].handler == "g/T1";
    assert GetTo(g.net.transitions["T1"]) == {"finish"};
    assert Petri.Valid(g);
  }

  /** On Start the graph is on Start and not on Finish; moved to Finish,
      the other way round. */
  lemma OnStartThenFinish()
    ensures var g := OneHop("g");
      && Petri.IsOnStart(Petri.SetCurrentNode(g, "start"))
      && !Petri.IsOnFinish(Petri.SetCurrentNode(g, "start"))
      && !Petri.IsOnStart(Petri.SetCurrentNode(g, "finish"))
      && Petri.IsOnFinish(Petri.SetCurrentNode(g, "finish"))
  {
    var g := OneHop("g");
    assert g.net.places["start"].id == "start" && g.net.places["finish"].id == "finish";
  }

  /** A graph-level HandleIn failure aborts StartGraph with Current unset. */
  lemma StartGraphHandlerError()
    ensures var g := OneHop("g");
      var cb := Scripted<int>(map[], map[]).(graphIn := h => Fail);
      var r := Petri.StartGraph(g, cb);
      r.error == Some(GraphInFailed) && r.graph.current.None?
  {
  }

  /** The engine tests' first graph: start --middle--> finish. */
  function Graph1(): Petri.Graph
  {
    var finish := NewPlace("finish", "graph1/finish");
    var middle := AddTo(NewTransition("middle", "graph1/middle"), finish);
    var start := AddTransition(NewPlace("start", "graph1/start"), middle);
    Petri.Graph("graph1", "graph1", Petri.Net(map["start" := start, "finish" := finish],
                                              map["middle" := middle]),
                "start", "finish", None)
  }

  /** The engine tests' second graph:
      start --start_to_finish--> middle --middle_to_finish--> finish. */
  function Graph2(): Petri.Graph
  {
    var finish := NewPlace("finish", "graph2/finish");
    var t2 := AddTo(NewTransition("middle_to_finish", "graph2/middle_to_finish"), finish);
    var middle := AddTransition(NewPlace("middle", "graph2/middle"), t2);
    var t1 := AddTo(NewTransition("start_to_finish", "graph2/start_to_finish"), middle);
    var start := AddTransition(NewPlace("start", "graph2/start"), t1);
    Petri.Graph("graph2", "graph2",
                Petri.Net(map["start" := start, "middle" := middle, "finish" := finish],
                          map["start_to_finish" := t1, "middle_to_finish" := t2]),
                "start", "finish", None)
  }

  /** The tests' handlers: every place points at its one transition, every
      transition at its one destination, and nothing fails. */
  function TestHandlers(): Petri.Callbacks<string>
  {
    Scripted(
      map["graph1/start" := "middle", "graph2/start" := "start_to_finish",
          "graph2/middle" := "middle_to_finish"],
      map["graph1/middle" := "finish", "graph2/start_to_finish" := "middle",
          "graph2/middle_to_finish" := "finish"])
  }

  lemma Graph1Shape()
    ensures Petri.Valid(Graph1())
    ensures OutEdges(Graph1().net.places["start"]) == {"middle"}
    ensures GetTo(Graph1().net.transitions["middle"]) == {"finish"}
    ensures Graph1().net.places["start"].handler == "graph1/start"
    ensures Graph1().net.places["finish"].handler == "graph1/finish"
    ensures Graph1().net.transitions["middle"].handler == "graph1/middle"
  {
  }

  lemma Graph2Shape()
    ensures Petri.Valid(Graph2())
    ensures OutEdges(Graph2().net.places["start"]) == {"start_to_finish"}
    ensures OutEdges(Graph2().net.places["middle"]) == {"middle_to_finish"}
    ensures GetTo(Graph2().net.transitions["start_to_finish"]) == {"middle"}
    ensures GetTo(Graph2().net.transitions["middle_to_finish"]) == {"finish"}
    ensures Graph2().net.places["start"].handler == "graph2/start"
    ensures Graph2().net.places["middle"].handler == "graph2/middle"
    ensures Graph2().net.places["finish"].handler == "graph2/finish"
    ensures Graph2().net.transitions["start_to_finish"].handler == "graph2/start_to_finish"
    ensures Graph2().net.transitions["middle_to_finish"].handler == "graph2/middle_to_finish"
  {
  }

  lemma Graph1Valid(c: Id)
    requires c in {"start", "finish"}
    ensures Petri.Valid(Graph1()) && Petri.Valid(Graph1().(current := Some(c)))
  {
    Graph1Shape();
  }

  lemma Graph2Valid(c: Id)
    requires c in {"start", "middle", "finish"}
    ensures Petri.Valid(Graph2()) && Petri.Valid(Graph2().(current := Some(c)))
  {
    Graph2Shape();
  }

  lemma LoneGraphValid(q: Priority.PriorityQueue<Petri.Graph>, a: int, g: Petri.Graph)
    requires q.levels == map[a := Fifo.Queue([g])] && Petri.Valid(g)
    ensures Scheduler.GraphsValid(q)
  {
  }

  lemma PairInLevelValid(q: Priority.PriorityQueue<Petri.Graph>, a: int, g: Petri.Graph, h: Petri.Graph)
    requires q.levels == map[a := Fifo.Queue([g, h])] && Petri.Valid(g) && Petri.Valid(h)
    ensures Scheduler.GraphsValid(q)
  {
  }

  lemma PairOfLevelsValid(q: Priority.PriorityQueue<Petri.Graph>, a: int, g: Petri.Graph,
                          b: int, h: Petri.Graph)
    requires a != b && q.levels == map[a := Fifo.Queue([g]), b := Fifo.Queue([h])]
    requires Petri.Valid(g) && Petri.Valid(h)
    ensures Scheduler.GraphsValid(q)
  {
  }

  /** A queue holding one item at each of the levels 0 and 1. */
  lemma LoneAtZeroAndOne<T>(q: Priority.PriorityQueue<T>, a: T, b: T)
    requires q.levels == map[0 := Fifo.Queue([a]), 1 := Fifo.Queue([b])] && q.maxPriority == 1
    ensures Priority.Valid(q) && Priority.Len(q) == 2
    ensures Priority.Peek(q) == Some(Priority.Head(b, 1))
    ensures Priority.Evict(q, 1) == Priority.PriorityQueue(map[0 := Fifo.Queue([a])], 0)
  {
    assert q.levels.Keys == {0, 1};
    var rest := q.levels - {1};
    assert rest == map[0 := Fifo.Queue([a])];
    assert Priority.IsGreatest(0, rest.Keys) by {
      assert rest.Keys == {0};
    }
  }

  /** A queue holding the items `s` at level `l` only. */
  lemma OnlyLevel<T>(q: Priority.PriorityQueue<T>, l: int, s: seq<T>)
    requires q.levels == map[l := Fifo.Queue(s)] && q.maxPriority == l && |s| > 0
    ensures Priority.Valid(q) && Priority.Len(q) == 1
    ensures Priority.Peek(q) == Some(Priority.Head(s[0], l))
    ensures Priority.Evict(q, l) == Priority.PriorityQueue(map[], 0)
  {
    assert q.levels.Keys == {l};
  }

  /** Adding graph1 at level 0 to an empty orchestrator starts it; adding
      graph2 at level 1 starts it too, since 1 is above the level present. */
  lemma TwoLevelsAdd()
    ensures var cb := TestHandlers();
      var p0 := Scheduler.NewPetriQueue(Priority.NewPriorityQueue(), "0");
      var r1 := Scheduler.AddGraph(p0, 0, Graph1(), cb);
      var r2 := Scheduler.AddGraph(r1.state, 1, Graph2(), cb);
      && r1.error.None? && r2.error.None?
      && r1.events == [Petri.GraphIn("graph1"), Petri.PlaceIn("graph1", "start", None)]
      && r2.events == [Petri.GraphIn("graph2"), Petri.PlaceIn("graph2", "start", None)]
      && r2.state == TwoLevelsStarted()
  {
    AddFirstGraph();
    AddAboveFirst();
  }

  /** graph2 added at level 1 above graph1 alone at 0 is started. */
  lemma AddAboveFirst()
    ensures Scheduler.AddGraph(OneLeft(), 1, Graph2(), TestHandlers())
      == Scheduler.Response(TwoLevelsStarted(),
           [Petri.GraphIn("graph2"), Petri.PlaceIn("graph2", "start", None)], None)
  {
    Graph2Valid("start");
    var g2 := Graph2().(current := Some("start"));
    assert Petri.StartGraph(Graph2(), TestHandlers())
      == Petri.Run(g2, [Petri.GraphIn("graph2"), Petri.PlaceIn("graph2", "start", None)], None);
    assert Priority.Push(OneLeft().queue, 1, g2) == TwoLevelsStarted().queue;
  }

  /** Both test graphs queued and on their start places: graph1 at level 0,
      graph2 at level 1. */
  function TwoLevelsStarted(): Scheduler.PetriQueue<string>
  {
    Scheduler.PetriQueue(
      Priority.PriorityQueue(
        map[0 := Fifo.Queue([Graph1().(current := Some("start"))]),
            1 := Fifo.Queue([Graph2().(current := Some("start"))])],
        1),
      "0")
  }

  /** graph2 on start takes start_to_finish to middle. */
  lemma Graph2FirstStep()
    ensures Petri.Act(Graph2().(current := Some("start")), "sig0", TestHandlers())
      == Petri.Run(Graph2().(current := Some("middle")),
                   [Petri.ChooseTo("graph2", "start", "sig0"),
                    Petri.Handle("graph2", "start_to_finish", "start", "sig0"),
                    Petri.PlaceOut("graph2", "start", Some("middle")),
                    Petri.PlaceIn("graph2", "middle", Some("start"))],
                   None)
  {
    Graph2Shape();
    var cb := TestHandlers();
    assert cb.chooseTo("graph2/start", "sig0") == Ok("start_to_finish");
    assert cb.handle("graph2/start_to_finish", "start", "sig0") == Ok("middle");
  }

  lemma TwoLevelsStartedShape()
    ensures Priority.Valid(TwoLevelsStarted().queue)
    ensures Scheduler.GraphsValid(TwoLevelsStarted().queue)
    ensures Priority.Len(TwoLevelsStarted().queue) == 2
    ensures Priority.Peek(TwoLevelsStarted().queue)
      == Some(Priority.Head(Graph2().(current := Some("start")), 1))
  {
    Graph1Valid("start");
    Graph2Valid("start");
    var g1 := Graph1().(current := Some("start"));
    var g2 := Graph2().(current := Some("start"));
    PairOfLevelsValid(TwoLevelsStarted().queue, 0, g1, 1, g2);
    LoneAtZeroAndOne(TwoLevelsStarted().queue, g1, g2);
  }

  lemma TwoLevelsFirstDrive()
    ensures Scheduler.GraphsValid(TwoLevelsStarted().queue)
    ensures Scheduler.DriveHead(TwoLevelsStarted(), "sig0", TestHandlers())
      == Scheduler.Settled(Scheduler.Response(TwoLevelsMidway(),
           Petri.Act(Graph2().(current := Some("start")), "sig0", TestHandlers()).events, None))
  {
    TwoLevelsStartedShape();
    Graph2FirstStep();
    Graph2Shape();
    var p := TwoLevelsStarted();
    var run := Petri.Act(Graph2().(current := Some("start")), "sig0", TestHandlers());
    assert !Petri.IsOnFinish(run.graph);
    RefreshLone(p.queue, 1, run.graph);
    MidwayLevels();
  }

  lemma MidwayLevels()
    ensures TwoLevelsStarted().queue.(levels := TwoLevelsStarted().queue.levels[
              1 := Fifo.Queue([Graph2().(current := Some("middle"))])])
      == TwoLevelsMidway().queue
  {
  }

  /** Writing back over a level that holds one graph replaces that graph. */
  lemma RefreshLone(q: Priority.PriorityQueue<Petri.Graph>, level: int, g: Petri.Graph)
    requires level in q.levels && |q.levels[level].elements| == 1
    ensures Scheduler.Refresh(q, level, g) == q.(levels := q.levels[level := Fifo.Queue([g])])
  {
    assert [g] + q.levels[level].elements[1..] == [g];
  }

  /** First signal: graph2, the head of level 1, moves start -> middle. */
  lemma TwoLevelsFirstSignal()
    ensures Scheduler.GraphsValid(TwoLevelsStarted().queue)
    ensures var a := Scheduler.Act(TwoLevelsStarted(), "sig0", TestHandlers());
      && a.error.None?
      && a.events == [Petri.ChooseTo("graph2", "start", "sig0"),
                      Petri.Handle("graph2", "start_to_finish", "start", "sig0"),
                      Petri.PlaceOut("graph2", "start", Some("middle")),
                      Petri.PlaceIn("graph2", "middle", Some("start"))]
      && a.state == TwoLevelsMidway()
  {
    TwoLevelsStartedShape();
    TwoLevelsFirstDrive();
    Graph2FirstStep();
  }

  /** graph2 on its middle place above graph1 on its start place. */
  function TwoLevelsMidway(): Scheduler.PetriQueue<string>
  {
    Scheduler.PetriQueue(
      Priority.PriorityQueue(
        map[0 := Fifo.Queue([Graph1().(current := Some("start"))]),
            1 := Fifo.Queue([Graph2().(current := Some("middle"))])],
        1),
      "0")
  }

  /** graph2 on middle takes middle_to_finish to finish. */
  lemma Graph2SecondStep()
    ensures Petri.Act(Graph2().(current := Some("middle")), "sig1", TestHandlers())
      == Petri.Run(Graph2().(current := Some("finish")),
                   [Petri.ChooseTo("graph2", "middle", "sig1"),
                    Petri.Handle("graph2", "middle_to_finish", "middle", "sig1"),
                    Petri.PlaceOut("graph2", "middle", Some("finish")),
                    Petri.PlaceIn("graph2", "finish", Some("middle"))],
                   None)
  {
    Graph2Shape();
    var cb := TestHandlers();
    assert cb.chooseTo("graph2/middle", "sig1") == Ok("middle_to_finish");
    assert cb.handle("graph2/middle_to_finish", "middle", "sig1") == Ok("finish");
  }

  /** graph2 on finish is finished without error. */
  lemma Graph2Finish()
    ensures Petri.IsOnFinish(Graph2().(current := Some("finish")))
    ensures Petri.FinishGraph(Graph2().(current := Some("finish")), TestHandlers())
      == Petri.Run(Graph2().(current := Some("finish")),
                   [Petri.PlaceOut("graph2", "finish", None), Petri.GraphOut("graph2")], None)
  {
    Graph2Shape();
  }

  /** graph1 on start takes middle to finish, whatever the signal. */
  lemma Graph1Step(signal: string)
    ensures Petri.Act(Graph1().(current := Some("start")), signal, TestHandlers())
      == Petri.Run(Graph1().(current := Some("finish")),
                   [Petri.ChooseTo("graph1", "start", signal),
                    Petri.Handle("graph1", "middle", "start", signal),
                    Petri.PlaceOut("graph1", "start", Some("finish")),
                    Petri.PlaceIn("graph1", "finish", Some("start"))],
                   None)
  {
    Graph1Shape();
    var cb := TestHandlers();
    assert cb.chooseTo("graph1/start", signal) == Ok("middle");
    assert cb.handle("graph1/middle", "start", signal) == Ok("finish");
  }

  /** graph1 on finish is finished without error. */
  lemma Graph1Finish()
    ensures Petri.IsOnFinish(Graph1().(current := Some("finish")))
    ensures Petri.FinishGraph(Graph1().(current := Some("finish")), TestHandlers())
      == Petri.Run(Graph1().(current := Some("finish")),
                   [Petri.PlaceOut("graph1", "finish", None), Petri.GraphOut("graph1")], None)
  {
    Graph1Shape();
  }

  /** Only graph1 left, still on its start place. */
  function OneLeft(): Scheduler.PetriQueue<string>
  {
    Scheduler.PetriQueue(
      Priority.PriorityQueue(map[0 := Fifo.Queue([Graph1().(current := Some("start"))])], 0),
      "0")
  }

  /** Every graph finished and evicted. */
  function Drained(): Scheduler.PetriQueue<string>
  {
    Scheduler.PetriQueue(Priority.PriorityQueue(map[], 0), "0")
  }

  /** Finishing and evicting the lone graph of the top level. */
  lemma EvictLone(q: Priority.PriorityQueue<Petri.Graph>, level: int, g: Petri.Graph)
    requires level in q.levels && |q.levels[level].elements| == 1 && level == q.maxPriority
    ensures var popped := Priority.PopPriority(Scheduler.Refresh(q, level, g), level);
      popped.item == Some(g)
      && popped.queue == Priority.Evict(q, level)
  {
    RefreshLone(q, level, g);
  }

  lemma MidwayShape()
    ensures Priority.Valid(TwoLevelsMidway().queue)
    ensures Scheduler.GraphsValid(TwoLevelsMidway().queue)
    ensures Priority.Len(TwoLevelsMidway().queue) == 2
    ensures Priority.Peek(TwoLevelsMidway().queue)
      == Some(Priority.Head(Graph2().(current := Some("middle")), 1))
    ensures Priority.Evict(TwoLevelsMidway().queue, 1) == OneLeft().queue
  {
    Graph1Valid("start");
    Graph2Valid("middle");
    var g1 := Graph1().(current := Some("start"));
    var g2 := Graph2().(current := Some("middle"));
    PairOfLevelsValid(TwoLevelsMidway().queue, 0, g1, 1, g2);
    LoneAtZeroAndOne(TwoLevelsMidway().queue, g1, g2);
  }

  lemma OneLeftShape()
    ensures Priority.Valid(OneLeft().queue)
    ensures Scheduler.GraphsValid(OneLeft().queue)
    ensures Priority.Len(OneLeft().queue) == 1
    ensures Priority.Peek(OneLeft().queue)
      == Some(Priority.Head(Graph1().(current := Some("start")), 0))
    ensures Priority.Evict(OneLeft().queue, 0) == Drained().queue
  {
    Graph1Valid("start");
    var g1 := Graph1().(current := Some("start"));
    LoneGraphValid(OneLeft().queue, 0, g1);
    OnlyLevel(OneLeft().queue, 0, [g1]);
  }

  /** Second signal, first pass: graph2 reaches finish, is finished and
      evicted, leaving graph1 alone. */
  lemma TwoLevelsSecondDrive()
    ensures Scheduler.GraphsValid(TwoLevelsMidway().queue)
    ensures Scheduler.DriveHead(TwoLevelsMidway(), "sig1", TestHandlers())
      == Scheduler.Evicted(OneLeft(),
           Petri.Act(Graph2().(current := Some("middle")), "sig1", TestHandlers()).events
           + [Petri.PlaceOut("graph2", "finish", None), Petri.GraphOut("graph2")])
  {
    MidwayShape();
    Graph2SecondStep();
    Graph2Finish();
    EvictLone(TwoLevelsMidway().queue, 1, Graph2().(current := Some("finish")));
  }

  /** Second signal, cascade: graph1 is driven with the zero signal, reaches
      finish, and is finished and evicted too. */
  lemma OneLeftDrive()
    ensures Scheduler.GraphsValid(OneLeft().queue)
    ensures Scheduler.DriveHead(OneLeft(), "0", TestHandlers())
      == Scheduler.Evicted(Drained(),
           Petri.Act(Graph1().(current := Some("start")), "0", TestHandlers()).events
           + [Petri.PlaceOut("graph1", "finish", None), Petri.GraphOut("graph1")])
  {
    OneLeftShape();
    Graph1Step("0");
    Graph1Finish();
    EvictLone(OneLeft().queue, 0, Graph1().(current := Some("finish")));
  }

  /** The cascade's call on graph1 alone. */
  lemma OneLeftSignal()
    ensures Scheduler.GraphsValid(OneLeft().queue)
    ensures Scheduler.Act(OneLeft(), "0", TestHandlers())
      == Scheduler.Response(Drained(),
           [Petri.ChooseTo("graph1", "start", "0"),
            Petri.Handle("graph1", "middle", "start", "0"),
            Petri.PlaceOut("graph1", "start", Some("finish")),
            Petri.PlaceIn("graph1", "finish", Some("start"))]
           + [Petri.PlaceOut("graph1", "finish", None),
              Petri.GraphOut("graph1")],
           None)
  {
    OneLeftDrive();
    Graph1Step("0");
    DrainedAct("0");
  }

  /** Second signal, whole call: both graphs finish in one Act, graph2 on
      the signal and graph1 on the zero signal, and the queue is empty. */
  lemma TwoLevelsSecondSignal()
    ensures Scheduler.GraphsValid(TwoLevelsMidway().queue)
    ensures var a := Scheduler.Act(TwoLevelsMidway(), "sig1", TestHandlers());
      && a.error.None?
      && a.events == ([Petri.ChooseTo("graph2", "middle", "sig1"),
                       Petri.Handle("graph2", "middle_to_finish", "middle", "sig1"),
                       Petri.PlaceOut("graph2", "middle", Some("finish")),
                       Petri.PlaceIn("graph2", "finish", Some("middle"))]
                      + [Petri.PlaceOut("graph2", "finish", None),
                         Petri.GraphOut("graph2")])
                   + ([Petri.ChooseTo("graph1", "start", "0"),
                       Petri.Handle("graph1", "middle", "start", "0"),
                       Petri.PlaceOut("graph1", "start", Some("finish")),
                       Petri.PlaceIn("graph1", "finish", Some("start"))]
                      + [Petri.PlaceOut("graph1", "finish", None),
                         Petri.GraphOut("graph1")])
      && a.state == Drained()
  {
    TwoLevelsSecondDrive();
    Graph2SecondStep();
    OneLeftSignal();
    ActAfterEviction(TwoLevelsMidway(), "sig1", TestHandlers());
  }

  /** Act is DriveHead followed, after an eviction, by the cascade. */
  lemma ActAfterEviction<S>(p: Scheduler.PetriQueue<S>, signal: S, cb: Petri.Callbacks<S>)
    requires Scheduler.GraphsValid(p.queue)
    ensures var d := Scheduler.DriveHead(p, signal, cb);
      d.Evicted? ==>
        var next := Scheduler.Act(d.rest, p.zeroSignal, cb);
        Scheduler.Act(p, signal, cb) == Scheduler.Response(next.state, d.events + next.events, next.error)
  {
  }

  /** Third signal: nothing is queued, so nothing is called. */
  lemma TwoLevelsThirdSignal()
    ensures Scheduler.GraphsValid(Drained().queue)
    ensures Scheduler.Act(Drained(), "sig2", TestHandlers())
      == Scheduler.Response(Drained(), [], None)
  {
    DrainedAct("sig2");
  }

  /** Acting on an empty orchestrator calls nothing and changes nothing. */
  lemma DrainedAct(signal: string)
    ensures Scheduler.GraphsValid(Drained().queue)
    ensures Scheduler.Act(Drained(), signal, TestHandlers()) == Scheduler.Response(Drained(), [], None)
  {
  }

  /** graph1 started at level 0, then graph2 queued behind it unstarted. */
  function OneLevelAdded(): Scheduler.PetriQueue<string>
  {
    Scheduler.PetriQueue(
      Priority.PriorityQueue(
        map[0 := Fifo.Queue([Graph1().(current := Some("start")), Graph2()])], 0),
      "0")
  }

  /** graph2 alone at level 0, not started. */
  function OneLevelBehind(): Scheduler.PetriQueue<string>
  {
    Scheduler.PetriQueue(Priority.PriorityQueue(map[0 := Fifo.Queue([Graph2()])], 0), "0")
  }

  /** graph2 alone at level 0, on its middle place. */
  function OneLevelMidway(): Scheduler.PetriQueue<string>
  {
    Scheduler.PetriQueue(
      Priority.PriorityQueue(map[0 := Fifo.Queue([Graph2().(current := Some("middle"))])], 0),
      "0")
  }

  /** Adding graph1 at level 0 to an empty orchestrator starts it. */
  lemma AddFirstGraph()
    ensures Scheduler.AddGraph(Scheduler.NewPetriQueue(Priority.NewPriorityQueue(), "0"),
                               0, Graph1(), TestHandlers())
      == Scheduler.Response(OneLeft(),
           [Petri.GraphIn("graph1"), Petri.PlaceIn("graph1", "start", None)], None)
  {
    Graph1Shape();
  }

  /** Adding graph2 at the level graph1 already holds queues it behind
      graph1 without starting it. */
  lemma OneLevelAdd()
    ensures Scheduler.AddGraph(OneLeft(), 0, Graph2(), TestHandlers())
      == Scheduler.Response(OneLevelAdded(), [], None)
  {
    assert Priority.Len(OneLeft().queue) == 1;
    PushBehind();
  }

  lemma PushBehind()
    ensures Priority.Push(OneLeft().queue, 0, Graph2()) == OneLevelAdded().queue
  {
    var front := Graph1().(current := Some("start"));
    assert Fifo.Push(Fifo.Queue([front]), Graph2()) == Fifo.Queue([front, Graph2()]);
    assert OneLeft().queue.levels[0 := Fifo.Queue([front, Graph2()])]
      == OneLevelAdded().queue.levels;
  }

  /** graph2 with no Current is started by the graph step itself, then
      driven by the zero signal from start to middle. */
  lemma Graph2StartAndStep()
    ensures Petri.Act(Graph2(), "0", TestHandlers())
      == Petri.Run(Graph2().(current := Some("middle")),
                   [Petri.GraphIn("graph2"),
                    Petri.PlaceIn("graph2", "start", None),
                    Petri.ChooseTo("graph2", "start", "0"),
                    Petri.Handle("graph2", "start_to_finish", "start", "0"),
                    Petri.PlaceOut("graph2", "start", Some("middle")),
                    Petri.PlaceIn("graph2", "middle", Some("start"))],
                   None)
  {
    Graph2Shape();
    var cb := TestHandlers();
    assert cb.chooseTo("graph2/start", "0") == Ok("start_to_finish");
    assert cb.handle("graph2/start_to_finish", "start", "0") == Ok("middle");
  }

  lemma OneLevelAddedShape()
    ensures Priority.Valid(OneLevelAdded().queue) && Scheduler.GraphsValid(OneLevelAdded().queue)
    ensures Priority.Len(OneLevelAdded().queue) == 1
    ensures Priority.Peek(OneLevelAdded().queue)
      == Some(Priority.Head(Graph1().(current := Some("start")), 0))
  {
    Graph1Valid("start");
    Graph2Valid("start");
    var g1 := Graph1().(current := Some("start"));
    PairInLevelValid(OneLevelAdded().queue, 0, g1, Graph2());
    OnlyLevel(OneLevelAdded().queue, 0, [g1, Graph2()]);
  }

  lemma OneLevelBehindShape()
    ensures Priority.Valid(OneLevelBehind().queue) && Scheduler.GraphsValid(OneLevelBehind().queue)
    ensures Priority.Len(OneLevelBehind().queue) == 1
    ensures Priority.Peek(OneLevelBehind().queue) == Some(Priority.Head(Graph2(), 0))
  {
    Graph2Valid("start");
    LoneGraphValid(OneLevelBehind().queue, 0, Graph2());
    OnlyLevel(OneLevelBehind().queue, 0, [Graph2()]);
  }

  lemma OneLevelMidwayShape()
    ensures Priority.Valid(OneLevelMidway().queue) && Scheduler.GraphsValid(OneLevelMidway().queue)
    ensures Priority.Len(OneLevelMidway().queue) == 1
    ensures Priority.Peek(OneLevelMidway().queue)
      == Some(Priority.Head(Graph2().(current := Some("middle")), 0))
    ensures Priority.Evict(OneLevelMidway().queue, 0) == Drained().queue
  {
    Graph2Valid("middle");
    var g2 := Graph2().(current := Some("middle"));
    LoneGraphValid(OneLevelMidway().queue, 0, g2);
    OnlyLevel(OneLevelMidway().queue, 0, [g2]);
  }

  /** First signal, first pass: graph1 reaches finish, is finished and
      leaves the front of level 0, which still holds graph2. */
  lemma OneLevelFirstDrive()
    ensures Scheduler.GraphsValid(OneLevelAdded().queue)
    ensures Scheduler.DriveHead(OneLevelAdded(), "sig0", TestHandlers())
      == Scheduler.Evicted(OneLevelBehind(),
           [Petri.ChooseTo("graph1", "start", "sig0"),
            Petri.Handle("graph1", "middle", "start", "sig0"),
            Petri.PlaceOut("graph1", "start", Some("finish")),
            Petri.PlaceIn("graph1", "finish", Some("start"))]
           + [Petri.PlaceOut("graph1", "finish", None), Petri.GraphOut("graph1")])
  {
    OneLevelAddedShape();
    Graph1Step("sig0");
    Graph1Finish();
    PopFinishedFront();
  }

  /** graph1, finished at the front of level 0, leaves graph2 there alone. */
  lemma PopFinishedFront()
    ensures var g := Graph1().(current := Some("finish"));
      var popped := Priority.PopPriority(Scheduler.Refresh(OneLevelAdded().queue, 0, g), 0);
      popped.item == Some(g) && popped.queue == OneLevelBehind().queue
  {
    var g := Graph1().(current := Some("finish"));
    var q := OneLevelAdded().queue;
    var q1 := q.(levels := q.levels[0 := Fifo.Queue([g, Graph2()])]);
    RefreshFrontOfTwo(q, 0, g);
    PopFrontOfTwo(q1, 0, g, Graph2());
    FrontLeft(g);
  }

  lemma FrontLeft(g: Petri.Graph)
    ensures var q := OneLevelAdded().queue;
      var q1 := q.(levels := q.levels[0 := Fifo.Queue([g, Graph2()])]);
      q1.(levels := q1.levels[0 := Fifo.Queue([Graph2()])]) == OneLevelBehind().queue
  {
  }

  /** Writing back over the front of a two-graph level. */
  lemma RefreshFrontOfTwo(q: Priority.PriorityQueue<Petri.Graph>, level: int, g: Petri.Graph)
    requires level in q.levels && |q.levels[level].elements| == 2
    ensures Scheduler.Refresh(q, level, g)
      == q.(levels := q.levels[level := Fifo.Queue([g, q.levels[level].elements[1]])])
  {
    assert [g] + q.levels[level].elements[1..] == [g, q.levels[level].elements[1]];
  }

  /** Popping the front of a two-item level keeps the level with the other. */
  lemma PopFrontOfTwo<T>(q: Priority.PriorityQueue<T>, level: int, a: T, b: T)
    requires level in q.levels && q.levels[level].elements == [a, b]
    ensures Priority.PopPriority(q, level)
      == Priority.Popped(Some(a), q.(levels := q.levels[level := Fifo.Queue([b])]))
  {
    assert [a, b][1..] == [b];
  }

  /** First signal, cascade: graph2 is started and moved by the zero signal. */
  lemma OneLevelBehindSignal()
    ensures Scheduler.GraphsValid(OneLevelBehind().queue)
    ensures Scheduler.Act(OneLevelBehind(), "0", TestHandlers())
      == Scheduler.Response(OneLevelMidway(),
           [Petri.GraphIn("graph2"),
            Petri.PlaceIn("graph2", "start", None),
            Petri.ChooseTo("graph2", "start", "0"),
            Petri.Handle("graph2", "start_to_finish", "start", "0"),
            Petri.PlaceOut("graph2", "start", Some("middle")),
            Petri.PlaceIn("graph2", "middle", Some("start"))],
           None)
  {
    OneLevelBehindShape();
    Graph2StartAndStep();
    var g := Graph2().(current := Some("middle"));
    Graph2NotFinished();
    RefreshLone(OneLevelBehind().queue, 0, g);
    BehindToMidway();
  }

  lemma Graph2NotFinished()
    ensures !Petri.IsOnFinish(Graph2().(current := Some("middle")))
  {
    Graph2Shape();
  }

  lemma BehindToMidway()
    ensures OneLevelBehind().queue.(levels := OneLevelBehind().queue.levels[
              0 := Fifo.Queue([Graph2().(current := Some("middle"))])])
      == OneLevelMidway().queue
  {
  }

  /** First signal, whole call: graph1 finishes on the signal and graph2,
      next at the same level, is started and moved by the zero signal. */
  lemma OneLevelFirstSignal()
    ensures Scheduler.GraphsValid(OneLevelAdded().queue)
    ensures var a := Scheduler.Act(OneLevelAdded(), "sig0", TestHandlers());
      && a.error.None?
      && a.events == [Petri.ChooseTo("graph1", "start", "sig0"),
                      Petri.Handle("graph1", "middle", "start", "sig0"),
                      Petri.PlaceOut("graph1", "start", Some("finish")),
                      Petri.PlaceIn("graph1", "finish", Some("start"))]
                   + [Petri.PlaceOut("graph1", "finish", None),
                      Petri.GraphOut("graph1")]
                   + [Petri.GraphIn("graph2"),
                      Petri.PlaceIn("graph2", "start", None),
                      Petri.ChooseTo("graph2", "start", "0"),
                      Petri.Handle("graph2", "start_to_finish", "start", "0"),
                      Petri.PlaceOut("graph2", "start", Some("middle")),
                      Petri.PlaceIn("graph2", "middle", Some("start"))]
      && a.state == OneLevelMidway()
  {
    OneLevelFirstDrive();
    OneLevelBehindSignal();
  }

  /** Second signal, first pass: graph2 reaches finish and is evicted. */
  lemma OneLevelSecondDrive()
    ensures Scheduler.GraphsValid(OneLevelMidway().queue)
    ensures Scheduler.DriveHead(OneLevelMidway(), "sig1", TestHandlers())
      == Scheduler.Evicted(Drained(),
           Petri.Act(Graph2().(current := Some("middle")), "sig1", TestHandlers()).events
           + [Petri.PlaceOut("graph2", "finish", None), Petri.GraphOut("graph2")])
  {
    OneLevelMidwayShape();
    Graph2SecondStep();
    Graph2Finish();
    EvictLone(OneLevelMidway().queue, 0, Graph2().(current := Some("finish")));
  }

  /** Second signal: graph2 reaches finish, is finished and evicted, and
      the cascade finds the queue empty. */
  lemma OneLevelSecondSignal()
    ensures Scheduler.GraphsValid(OneLevelMidway().queue)
    ensures var a := Scheduler.Act(OneLevelMidway(), "sig1", TestHandlers());
      && a.error.None?
      && a.events == [Petri.ChooseTo("graph2", "middle", "sig1"),
                      Petri.Handle("graph2", "middle_to_finish", "middle", "sig1"),
                      Petri.PlaceOut("graph2", "middle", Some("finish")),
                      Petri.PlaceIn("graph2", "finish", Some("middle"))]
                   + [Petri.PlaceOut("graph2", "finish", None),
                      Petri.GraphOut("graph2")]
      && a.state == Drained()
  {
    OneLevelSecondDrive();
    Graph2SecondStep();
    DrainedAct("0");
    ActAfterEviction(OneLevelMidway(), "sig1", TestHandlers());
  }
}

=== FILE: scheduler.dfy ===
/**
  The orchestrator: a priority queue of graph instances plus a zero signal.
  A new graph pre-empts the head only when it arrives at a strictly higher
  level; each signal drives the head graph (highest level, earliest within
  it), and a head that reaches Finish is finished, evicted, and the next
  head is driven with the zero signal, recursively.

  The engine's queue holds pointers, so a step taken by the head graph is
  visible in the queue; here queued graphs are independent values, the
  stepped graph is written back over the head of its level (`Refresh`),
  and AddGraph stores the graph as it is after its start attempt. This
  matches the engine while each graph is queued once and not changed
  from outside while queued.
 */
module Scheduler {
  import opened Outcomes
  import opened Topology
  import Fifo
  import Petri
  import Priority

  type Graph = Petri.Graph

  datatype PetriQueue<S> = PetriQueue(queue: Priority.PriorityQueue<Graph>, zeroSignal: S)

  /** The orchestrator after a call, the handler calls made, and the error
      returned, if any. */
  datatype Response<S> = Response(
    state: PetriQueue<S>,
    events: seq<Petri.Event<S>>,
    error: Option<Error>)

  function NewPetriQueue<S>(q: Priority.PriorityQueue<Graph>, zero: S): (p: PetriQueue<S>)
    ensures p.queue == q && p.zeroSignal == zero
  {
    PetriQueue(q, zero)
  }

  /** Every graph held by the queue has resolvable place references. */
  ghost predicate GraphsValid(q: Priority.PriorityQueue<Graph>)
  {
    forall l, i | l in q.levels && 0 <= i < |q.levels[l].elements| ::
      Petri.Valid(q.levels[l].elements[i])
  }

  /** The graph identifiers of each level, in queue order. */
  function IdsOf(s: seq<Graph>): (r: seq<Id>)
    ensures |r| == |s|
    ensures forall i | 0 <= i < |s| :: r[i] == s[i].id
  {
    seq(|s|, i requires 0 <= i < |s| => s[i].id)
  }

  function Roster(q: Priority.PriorityQueue<Graph>): (r: map<int, seq<Id>>)
    ensures r.Keys == q.levels.Keys
    ensures forall l | l in q.levels :: r[l] == IdsOf(q.levels[l].elements)
  {
    map l | l in q.levels :: IdsOf(q.levels[l].elements)
  }

  /** The roster once the front graph of `level` has left. */
  function DropFront(ro: map<int, seq<Id>>, level: int): map<int, seq<Id>>
    requires level in ro
  {
    if |ro[level]| <= 1 then ro - {level} else ro[level := ro[level][1..]]
  }

  /** Writes a stepped graph back over the head of its level, the way the
      engine's pointer-sharing makes the step visible in the queue. */
  function Refresh(q: Priority.PriorityQueue<Graph>, level: int, g: Graph)
    : (r: Priority.PriorityQueue<Graph>)
    requires level in q.levels && |q.levels[level].elements| > 0
    ensures r.maxPriority == q.maxPriority && r.levels.Keys == q.levels.Keys
    ensures r.levels[level].elements == [g] + q.levels[level].elements[1..]
    ensures forall l | l in q.levels && l != level :: r.levels[l] == q.levels[l]
    ensures Priority.Valid(q) ==> Priority.Valid(r)
    ensures Priority.Count(r.levels) == Priority.Count(q.levels)
    ensures GraphsValid(q) && Petri.Valid(g) ==> GraphsValid(r)
    ensures g.id == q.levels[level].elements[0].id ==> Roster(r) == Roster(q)
  {
    var rest := q.levels[level].elements[1..];
    var r := q.(levels := q.levels[level := Fifo.Queue([g] + rest)]);
    Priority.CountUpdate(q.levels, level, Fifo.Queue([g] + rest));
    ReplaceFrontKeepsGraphsValid(q, level, g);
    assert g.id == q.levels[level].elements[0].id ==>
      IdsOf([g] + rest) == IdsOf(q.levels[level].elements);
    r
  }

  lemma ReplaceFrontKeepsGraphsValid(q: Priority.PriorityQueue<Graph>, level: int, g: Graph)
    requires level in q.levels && |q.levels[level].elements| > 0
    ensures var r := q.levels[level := Fifo.Queue([g] + q.levels[level].elements[1..])];
      GraphsValid(q) && Petri.Valid(g) ==> GraphsValid(q.(levels := r))
  {
    var r := q.(levels := q.levels[level := Fifo.Queue([g] + q.levels[level].elements[1..])]);
    forall l, i | GraphsValid(q) && Petri.Valid(g) && l in r.levels && 0 <= i < |r.levels[l].elements|
      ensures Petri.Valid(r.levels[l].elements[i])
    {
      if l != level {
        assert r.levels[l] == q.levels[l];
      } else if i > 0 {
        assert r.levels[l].elements[i] == q.levels[l].elements[i];
      }
    }
  }

  /** Pushes the graph at `level`; starts it only if it has no Current and
      the queue held no level before, or `level` is above the previous
      maximum. The graph stays queued even when its start fails. */
  function AddGraph<S>(p: PetriQueue<S>, level: int, g: Graph, cb: Petri.Callbacks<S>)
    : (r: Response<S>)
    requires g.current.None? ==> g.start in g.net.places
    ensures r.state.zeroSignal == p.zeroSignal
    ensures level in r.state.queue.levels && |r.state.queue.levels[level].elements| > 0
    ensures var stored := r.state.queue.levels[level].elements;
      && Petri.SameTopology(stored[|stored| - 1], g)
      && r.state.queue == Priority.Push(p.queue, level, stored[|stored| - 1])
      && (r.events == [] ==> stored[|stored| - 1] == g && r.error.None?)
    ensures r.events != [] <==>
      g.current.None? && (p.queue.levels == map[] || level > p.queue.maxPriority)
    ensures r.events != [] ==>
      var stored := r.state.queue.levels[level].elements;
      var s := Petri.StartGraph(g, cb);
      r.events == s.events && r.error == s.error && stored[|stored| - 1] == s.graph
    ensures r.events != [] ==> r.events[0] == Petri.GraphIn(g.id)
    ensures r.error.Some? ==> r.events != [] && r.error in {Some(GraphInFailed), Some(StartPlaceInFailed)}
    ensures Priority.Valid(p.queue) && (level >= 0 || p.queue.levels != map[])
            ==> Priority.Valid(r.state.queue)
    ensures GraphsValid(p.queue) && Petri.Valid(g) ==> GraphsValid(r.state.queue)
  {
    var size := Priority.Len(p.queue);
    var currentLevel := Priority.GetMaxPriority(p.queue);
    if g.current.Some? || (size != 0 && level <= currentLevel) then
      PushKeepsGraphsValid(p.queue, level, g);
      Response(p.(queue := Priority.Push(p.queue, level, g)), [], None)
    else
      var run := Petri.StartGraph(g, cb);
      PushKeepsGraphsValid(p.queue, level, run.graph);
      Response(p.(queue := Priority.Push(p.queue, level, run.graph)), run.events, run.error)
  }

  /** Pushing a graph whose references resolve keeps every queued graph's
      references resolvable. */
  lemma PushKeepsGraphsValid(q: Priority.PriorityQueue<Graph>, level: int, g: Graph)
    ensures GraphsValid(q) && Petri.Valid(g) ==> GraphsValid(Priority.Push(q, level, g))
  {
    var r := Priority.Push(q, level, g);
    if GraphsValid(q) && Petri.Valid(g) {
      forall l, i | l in r.levels && 0 <= i < |r.levels[l].elements|
        ensures Petri.Valid(r.levels[l].elements[i])
      {
        if l != level {
          assert r.levels[l] == q.levels[l];
        } else if i < |r.levels[l].elements| - 1 {
          assert r.levels[l].elements[i] == q.levels[l].elements[i];
        }
      }
    }
  }

  /** Where driving the head graph leaves the call: settled with a response,
      or the head finished and was evicted, leaving `rest` for the cascade. */
  datatype HeadStep<S> =
    | Settled(response: Response<S>)
    | Evicted(rest: PetriQueue<S>, events: seq<Petri.Event<S>>)

  /** The queue errors Act can report only if the queue is corrupted. */
  predicate Corrupt(e: Option<Error>)
  {
    e in {Some(PeekFailed), Some(PopFailed), Some(IdMismatch)}
  }

  /** One pass of Act without its recursive tail: peek the head, step it,
      and, when it reached Finish, finish it, pop the peeked level and check
      the popped identifier. */
  function DriveHead<S>(p: PetriQueue<S>, signal: S, cb: Petri.Callbacks<S>): (r: HeadStep<S>)
    requires GraphsValid(p.queue)
    ensures p.queue.levels == map[] ==> r == Settled(Response(p, [], None))
    ensures p.queue.levels != map[] && Priority.Peek(p.queue).None? ==>
      r == Settled(Response(p, [], Some(PeekFailed)))
    ensures r.Settled? ==> r.response.error !in {Some(PopFailed), Some(IdMismatch)}
    ensures r.Settled? ==>
      && GraphsValid(r.response.state.queue)
      && r.response.state.zeroSignal == p.zeroSignal
      && Priority.Count(r.response.state.queue.levels) == Priority.Count(p.queue.levels)
    ensures r.Evicted? ==>
      && GraphsValid(r.rest.queue)
      && r.rest.zeroSignal == p.zeroSignal
      && Priority.Count(r.rest.queue.levels) + 1 == Priority.Count(p.queue.levels)
  {
    if Priority.Len(p.queue) == 0 then Settled(Response(p, [], None))
    else match Priority.Peek(p.queue)
      case None => Settled(Response(p, [], Some(PeekFailed)))
      case Some(head) =>
        assert Petri.Valid(head.item);
        var run := Petri.Act(head.item, signal, cb);
        var stepped := p.(queue := Refresh(p.queue, head.level, run.graph));
        if run.error.Some? then Settled(Response(stepped, run.events, run.error))
        else if !Petri.IsOnFinish(run.graph) then Settled(Response(stepped, run.events, None))
        else
          var fin := Petri.FinishGraph(run.graph, cb);
          var events := run.events + fin.events;
          if fin.error.Some? then Settled(Response(stepped, events, fin.error))
          else
            var popped := Priority.PopPriority(stepped.queue, head.level);
            PopKeepsGraphsValid(stepped.queue, head.level);
            assert popped.item == Some(run.graph);
            var rest := stepped.(queue := popped.queue);
            if popped.item.None? then Settled(Response(rest, events, Some(PopFailed)))
            else if popped.item.value.id != run.graph.id then
              Settled(Response(rest, events, Some(IdMismatch)))
            else Evicted(rest, events)
  }

  /** Popping never leaves a graph with dangling references behind. */
  lemma PopKeepsGraphsValid(q: Priority.PriorityQueue<Graph>, level: int)
    ensures GraphsValid(q) ==> GraphsValid(Priority.PopPriority(q, level).queue)
  {
    var r := Priority.PopPriority(q, level).queue;
    forall l, i | GraphsValid(q) && l in r.levels && 0 <= i < |r.levels[l].elements|
      ensures Petri.Valid(r.levels[l].elements[i])
    {
      if l == level {
        assert r.levels[l].elements[i] == q.levels[l].elements[i + 1];
      } else {
        assert r.levels[l] == q.levels[l];
      }
    }
  }

  /** Drives one signal through the head graph and, each time the head is
      finished and evicted, drives the next head with the zero signal. The
      cascade ends because every recursive call follows a successful pop. */
  function Act<S>(p: PetriQueue<S>, signal: S, cb: Petri.Callbacks<S>): (r: Response<S>)
    requires GraphsValid(p.queue)
    ensures GraphsValid(r.state.queue)
    ensures r.state.zeroSignal == p.zeroSignal
    ensures p.queue.levels == map[] ==> r == Response(p, [], None)
    ensures p.queue.levels != map[] && Priority.Peek(p.queue).None? ==>
      r == Response(p, [], Some(PeekFailed))
    ensures r.error !in {Some(PopFailed), Some(IdMismatch)}
    ensures Priority.Valid(p.queue) ==> Priority.Valid(r.state.queue) && !Corrupt(r.error)
    ensures Priority.Count(r.state.queue.levels) <= Priority.Count(p.queue.levels)
    decreases Priority.Count(p.queue.levels)
  {
    DriveHeadKeepsValid(p, signal, cb);
    match DriveHead(p, signal, cb)
    case Settled(response) => response
    case Evicted(rest, events) =>
      var next := Act(rest, p.zeroSignal, cb);
      Response(next.state, events + next.events, next.error)
  }

  /** A first graph added at a negative level jams the orchestrator: the
      cached maximum stays at 0 (see `Priority.NegativeLevelHidesItem`), so
      Act finds the queue non-empty but its head missing, reports
      peek-failed and leaves the state as it was, so that Act alone never
      clears it. */
  lemma NegativeFirstLevelJams<S>(zero: S, level: int, g: Graph, signal: S, cb: Petri.Callbacks<S>)
    requires Petri.Valid(g) && level < 0
    ensures var a := AddGraph(NewPetriQueue(Priority.NewPriorityQueue(), zero), level, g, cb);
      && GraphsValid(a.state.queue)
      && a.state.queue.levels != map[]
      && Act(a.state, signal, cb) == Response(a.state, [], Some(PeekFailed))
  {
    var a := AddGraph(NewPetriQueue(Priority.NewPriorityQueue(), zero), level, g, cb);
    var stored := a.state.queue.levels[level].elements;
    Priority.NegativeLevelHidesItem(Priority.NewPriorityQueue(), level, stored[|stored| - 1]);
  }

  /** Under the queue invariant, a graph without Current is started by
      AddGraph exactly when its level is strictly above every level already
      present (or none is present). */
  lemma AddGraphStartsOnlyAbove<S>(p: PetriQueue<S>, level: int, g: Graph, cb: Petri.Callbacks<S>)
    requires g.current.None? ==> g.start in g.net.places
    requires Priority.Valid(p.queue)
    ensures AddGraph(p, level, g, cb).events != [] <==>
      g.current.None? && forall l | l in p.queue.levels :: l < level
  {
    if p.queue.levels != map[] && (forall l | l in p.queue.levels :: l < level) {
      assert p.queue.maxPriority in p.queue.levels;
    }
  }

  /** The queue once the head of `level`, stepped to `g`, has been finished
      and popped: exactly one graph, the front of that level, is gone. */
  function Retire(q: Priority.PriorityQueue<Graph>, level: int, g: Graph)
    : (r: Priority.PriorityQueue<Graph>)
    requires level in q.levels && |q.levels[level].elements| > 0
    ensures g.id == q.levels[level].elements[0].id ==> Roster(r) == DropFront(Roster(q), level)
    ensures Priority.Count(r.levels) + 1 == Priority.Count(q.levels)
    ensures Priority.Valid(q) ==> Priority.Valid(r)
    ensures GraphsValid(q) && Petri.Valid(g) ==> GraphsValid(r)
  {
    var q1 := Refresh(q, level, g);
    PopKeepsGraphsValid(q1, level);
    RosterAfterPop(q1, level);
    Priority.PopPriority(q1, level).queue
  }

  /** Popping a non-empty level drops the front identifier of that level
      from the roster and nothing else. */
  lemma RosterAfterPop(q: Priority.PriorityQueue<Graph>, l: int)
    requires l in q.levels && |q.levels[l].elements| > 0
    ensures Roster(Priority.PopPriority(q, l).queue) == DropFront(Roster(q), l)
  {
    var rest := Priority.PopPriority(q, l).queue;
    var ro := Roster(q);
    if |q.levels[l].elements| == 1 {
      assert rest.levels == q.levels - {l};
    } else {
      assert rest.levels == q.levels[l := Fifo.Queue(q.levels[l].elements[1..])];
      assert IdsOf(q.levels[l].elements[1..]) == ro[l][1..];
    }
  }

  /** Under the queue invariant DriveHead keeps the invariant and never
      reports a corrupted queue. */
  lemma DriveHeadKeepsValid<S>(p: PetriQueue<S>, signal: S, cb: Petri.Callbacks<S>)
    requires GraphsValid(p.queue)
    ensures DriveHeadSound(p, signal, cb)
  {
    if Priority.Valid(p.queue) && p.queue.levels != map[] {
      var head := Priority.Peek(p.queue).value;
      var run := Petri.Act(head.item, signal, cb);
      if run.error.None? && Petri.IsOnFinish(run.graph) {
        FinishedHeadSound(p, signal, cb);
      } else {
        UnfinishedHeadSound(p, signal, cb);
      }
    }
  }

  lemma UnfinishedHeadSound<S>(p: PetriQueue<S>, signal: S, cb: Petri.Callbacks<S>)
    requires GraphsValid(p.queue) && Priority.Valid(p.queue) && p.queue.levels != map[]
    requires var run := Petri.Act(Priority.Peek(p.queue).value.item, signal, cb);
      run.error.Some? || !Petri.IsOnFinish(run.graph)
    ensures DriveHeadSound(p, signal, cb)
  {
    DriveHeadSettlesStep(p, signal, cb);
    var head := Priority.Peek(p.queue).value;
    var run := Petri.Act(head.item, signal, cb);
    assert Priority.Valid(Refresh(p.queue, head.level, run.graph));
    assert !Corrupt(run.error);
  }

  lemma FinishedHeadSound<S>(p: PetriQueue<S>, signal: S, cb: Petri.Callbacks<S>)
    requires GraphsValid(p.queue) && Priority.Valid(p.queue) && p.queue.levels != map[]
    requires var run := Petri.Act(Priority.Peek(p.queue).value.item, signal, cb);
      run.error.None? && Petri.IsOnFinish(run.graph)
    ensures DriveHeadSound(p, signal, cb)
  {
    var head := Priority.Peek(p.queue).value;
    var run := Petri.Act(head.item, signal, cb);
    if Petri.FinishGraph(run.graph, cb).error.None? {
      RetiredHeadSound(p, signal, cb);
    } else {
      UnfinishableHeadSound(p, signal, cb);
    }
  }

  lemma UnfinishableHeadSound<S>(p: PetriQueue<S>, signal: S, cb: Petri.Callbacks<S>)
    requires GraphsValid(p.queue) && Priority.Valid(p.queue) && p.queue.levels != map[]
    requires var run := Petri.Act(Priority.Peek(p.queue).value.item, signal, cb);
      && run.error.None? && Petri.IsOnFinish(run.graph)
      && Petri.FinishGraph(run.graph, cb).error.Some?
    ensures DriveHeadSound(p, signal, cb)
  {
    DriveHeadSettlesFinish(p, signal, cb);
    var head := Priority.Peek(p.queue).value;
    var run := Petri.Act(head.item, signal, cb);
    var fin := Petri.FinishGraph(run.graph, cb);
    SettledSound(p, signal, cb, Refresh(p.queue, head.level, run.graph),
                 run.events + fin.events, fin.error);
  }

  lemma SettledSound<S>(p: PetriQueue<S>, signal: S, cb: Petri.Callbacks<S>,
                        q: Priority.PriorityQueue<Graph>, events: seq<Petri.Event<S>>,
                        e: Option<Error>)
    requires GraphsValid(p.queue)
    requires DriveHead(p, signal, cb) == Settled(Response(p.(queue := q), events, e))
    requires Priority.Valid(q) && !Corrupt(e)
    ensures DriveHeadSound(p, signal, cb)
  {
  }

  lemma RetiredHeadSound<S>(p: PetriQueue<S>, signal: S, cb: Petri.Callbacks<S>)
    requires GraphsValid(p.queue) && Priority.Valid(p.queue) && p.queue.levels != map[]
    requires var run := Petri.Act(Priority.Peek(p.queue).value.item, signal, cb);
      && run.error.None? && Petri.IsOnFinish(run.graph)
      && Petri.FinishGraph(run.graph, cb).error.None?
    ensures DriveHeadSound(p, signal, cb)
  {
    DriveHeadRetires(p, signal, cb);
    var head := Priority.Peek(p.queue).value;
    var run := Petri.Act(head.item, signal, cb);
    assert Priority.Valid(Retire(p.queue, head.level, run.graph));
  }

  ghost predicate DriveHeadSound<S>(p: PetriQueue<S>, signal: S, cb: Petri.Callbacks<S>)
    requires GraphsValid(p.queue)
  {
    var r := DriveHead(p, signal, cb);
    Priority.Valid(p.queue) ==>
      && (r.Settled? ==> Priority.Valid(r.response.state.queue) && !Corrupt(r.response.error))
      && (r.Evicted? ==> Priority.Valid(r.rest.queue))
  }

  /** On a well-formed, non-empty queue DriveHead never hits its corruption
      checks: the step's failure or a head short of Finish settles the call,
      a failing FinishGraph settles it with that error, and otherwise the
      head is retired. */
  lemma DriveHeadCases<S>(p: PetriQueue<S>, signal: S, cb: Petri.Callbacks<S>)
    requires GraphsValid(p.queue) && Priority.Valid(p.queue) && p.queue.levels != map[]
    ensures var head := Priority.Peek(p.queue).value;
      var run := Petri.Act(head.item, signal, cb);
      var stepped := p.(queue := Refresh(p.queue, head.level, run.graph));
      && (run.error.Some? || !Petri.IsOnFinish(run.graph) ==>
            DriveHead(p, signal, cb) == Settled(Response(stepped, run.events, run.error)))
      && (run.error.None? && Petri.IsOnFinish(run.graph) ==>
            var fin := Petri.FinishGraph(run.graph, cb);
            && (fin.error.Some? ==>
                  DriveHead(p, signal, cb)
                  == Settled(Response(stepped, run.events + fin.events, fin.error)))
            && (fin.error.None? ==>
                  DriveHead(p, signal, cb)
                  == Evicted(p.(queue := Retire(p.queue, head.level, run.graph)),
                             run.events + fin.events)))
  {
    var head := Priority.Peek(p.queue).value;
    var run := Petri.Act(head.item, signal, cb);
    if run.error.Some? || !Petri.IsOnFinish(run.graph) {
      DriveHeadSettlesStep(p, signal, cb);
    } else if Petri.FinishGraph(run.graph, cb).error.Some? {
      DriveHeadSettlesFinish(p, signal, cb);
    } else {
      DriveHeadRetires(p, signal, cb);
    }
  }

  lemma DriveHeadSettlesStep<S>(p: PetriQueue<S>, signal: S, cb: Petri.Callbacks<S>)
    requires GraphsValid(p.queue) && Priority.Valid(p.queue) && p.queue.levels != map[]
    requires var run := Petri.Act(Priority.Peek(p.queue).value.item, signal, cb);
      run.error.Some? || !Petri.IsOnFinish(run.graph)
    ensures var head := Priority.Peek(p.queue).value;
      var run := Petri.Act(head.item, signal, cb);
      DriveHead(p, signal, cb)
      == Settled(Response(p.(queue := Refresh(p.queue, head.level, run.graph)),
                          run.events, run.error))
  {
  }

  lemma DriveHeadSettlesFinish<S>(p: PetriQueue<S>, signal: S, cb: Petri.Callbacks<S>)
    requires GraphsValid(p.queue) && Priority.Valid(p.queue) && p.queue.levels != map[]
    requires var run := Petri.Act(Priority.Peek(p.queue).value.item, signal, cb);
      && run.error.None? && Petri.IsOnFinish(run.graph)
      && Petri.FinishGraph(run.graph, cb).error.Some?
    ensures var head := Priority.Peek(p.queue).value;
      var run := Petri.Act(head.item, signal, cb);
      var fin := Petri.FinishGraph(run.graph, cb);
      DriveHead(p, signal, cb)
      == Settled(Response(p.(queue := Refresh(p.queue, head.level, run.graph)),
                          run.events + fin.events, fin.error))
  {
  }

  lemma DriveHeadRetires<S>(p: PetriQueue<S>, signal: S, cb: Petri.Callbacks<S>)
    requires GraphsValid(p.queue) && Priority.Valid(p.queue) && p.queue.levels != map[]
    requires var run := Petri.Act(Priority.Peek(p.queue).value.item, signal, cb);
      && run.error.None? && Petri.IsOnFinish(run.graph)
      && Petri.FinishGraph(run.graph, cb).error.None?
    ensures var head := Priority.Peek(p.queue).value;
      var run := Petri.Act(head.item, signal, cb);
      var fin := Petri.FinishGraph(run.graph, cb);
      DriveHead(p, signal, cb)
      == Evicted(p.(queue := Retire(p.queue, head.level, run.graph)), run.events + fin.events)
  {
  }

  /** Act serves the head: the front graph of the greatest level. When the
      head's step fails, or does not reach Finish, the call ends with the
      step's own error and events, the stepped graph stays at the head of its
      level, and every level keeps the same graphs in the same order. */
  lemma ActKeepsUnfinishedHead<S>(p: PetriQueue<S>, signal: S, cb: Petri.Callbacks<S>)
    requires GraphsValid(p.queue) && Priority.Valid(p.queue) && p.queue.levels != map[]
    ensures var head := Priority.Peek(p.queue).value;
      var run := Petri.Act(head.item, signal, cb);
      var r := Act(p, signal, cb);
      && Priority.IsGreatest(head.level, p.queue.levels.Keys)
      && head.item == p.queue.levels[head.level].elements[0]
      && (run.error.Some? || !Petri.IsOnFinish(run.graph) ==>
            && r.error == run.error
            && r.events == run.events
            && r.state.queue.levels[head.level].elements[0] == run.graph
            && Roster(r.state.queue) == Roster(p.queue))
  {
    DriveHeadCases(p, signal, cb);
  }

  /** When the head's step reaches Finish, FinishGraph (HandleOut(nil) on
      Finish, then the graph-level HandleOut) runs right after the step; if
      it fails, the call ends with its error and the graph stays queued. */
  lemma ActFinishesReachedHead<S>(p: PetriQueue<S>, signal: S, cb: Petri.Callbacks<S>)
    requires GraphsValid(p.queue) && Priority.Valid(p.queue) && p.queue.levels != map[]
    ensures var head := Priority.Peek(p.queue).value;
      var run := Petri.Act(head.item, signal, cb);
      var r := Act(p, signal, cb);
      run.error.None? && Petri.IsOnFinish(run.graph) ==>
        var fin := Petri.FinishGraph(run.graph, cb);
        && fin.events[0] == Petri.PlaceOut(head.item.id, head.item.finish, None)
        && run.events + fin.events <= r.events
        && (fin.error.Some? ==> r.error == fin.error && Roster(r.state.queue) == Roster(p.queue))
  {
    var head := Priority.Peek(p.queue).value;
    var run := Petri.Act(head.item, signal, cb);
    if run.error.None? && Petri.IsOnFinish(run.graph) {
      DriveHeadCases(p, signal, cb);
      var fin := Petri.FinishGraph(run.graph, cb);
      assert run.graph.current == Some(head.item.finish);
      if fin.error.None? {
        ActEvictsFinishedHead(p, signal, cb);
      } else {
        assert Act(p, signal, cb).events == run.events + fin.events;
        assert Roster(Refresh(p.queue, head.level, run.graph)) == Roster(p.queue);
      }
    }
  }

  /** When the head reaches Finish and FinishGraph succeeds, exactly that
      graph leaves its level (the level disappears with its last graph), and
      the cascade continues with the zero signal on the remaining queue. */
  lemma ActEvictsFinishedHead<S>(p: PetriQueue<S>, signal: S, cb: Petri.Callbacks<S>)
    requires GraphsValid(p.queue) && Priority.Valid(p.queue) && p.queue.levels != map[]
    ensures var head := Priority.Peek(p.queue).value;
      var run := Petri.Act(head.item, signal, cb);
      run.error.None? && Petri.IsOnFinish(run.graph)
      && Petri.FinishGraph(run.graph, cb).error.None? ==>
        var fin := Petri.FinishGraph(run.graph, cb);
        var rest := Retire(p.queue, head.level, run.graph);
        var next := Act(p.(queue := rest), p.zeroSignal, cb);
        && Roster(rest) == DropFront(Roster(p.queue), head.level)
        && Priority.Count(rest.levels) + 1 == Priority.Count(p.queue.levels)
        && Act(p, signal, cb)
           == Response(next.state, run.events + fin.events + next.events, next.error)
  {
    DriveHeadCases(p, signal, cb);
  }
}

=== FILE: topology.dfy ===
/**
  Places and transitions of a workflow topology. Each keeps the set of
  identifiers it may lead to; the sets only ever grow and are the single
  source of truth for which moves are legal. A set that was never created
  (a nil map in the engine) is `None` and reads as empty.
 */
module Topology {
  import opened Outcomes

  /** Identifiers of places, transitions and graphs. */
  type Id = string

  /** Identity of a user-supplied handler object; its behaviour is given
      separately, as pure functions (see `Petri.Callbacks`). */
  type HandlerId = string

  /** A place and the identifiers of the transitions leaving it. */
  datatype Place = Place(id: Id, handler: HandlerId, to: Option<set<Id>>)

  /** A transition and the identifiers of the places it may lead to. */
  datatype Transition = Transition(id: Id, handler: HandlerId, to: Option<set<Id>>)

  /** The out-edge set of a place, as a lookup in it sees it. */
  function OutEdges(p: Place): set<Id>
  {
    if p.to.Some? then p.to.value else {}
  }

  /** The destination set of a transition, as a lookup in it sees it. */
  function GetTo(t: Transition): set<Id>
  {
    if t.to.Some? then t.to.value else {}
  }

  function NewPlace(id: Id, handler: HandlerId): (p: Place)
    ensures p.id == id && p.handler == handler
    ensures p.to.Some? && OutEdges(p) == {}
  {
    Place(id, handler, Some({}))
  }

  /** Registers `t` as an out-edge of `p`; creates the set first when the
      place was built without one. */
  function AddTransition(p: Place, t: Transition): (r: Place)
    ensures r.id == p.id && r.handler == p.handler
    ensures r.to.Some?
    ensures t.id in OutEdges(r)
    ensures OutEdges(p) <= OutEdges(r)
    ensures OutEdges(r) - {t.id} <= OutEdges(p)
  {
    var edges := if p.to.None? then {} else p.to.value;
    p.(to := Some(edges + {t.id}))
  }

  lemma AddTransitionIdempotent(p: Place, t: Transition)
    ensures AddTransition(AddTransition(p, t), t) == AddTransition(p, t)
  {
  }

  /** A place whose set was never created behaves like a constructed one. */
  lemma AddTransitionOnMissingSet(p: Place, t: Transition)
    requires p.to.None?
    ensures AddTransition(p, t) == AddTransition(p.(to := Some({})), t)
  {
  }

  function NewTransition(id: Id, handler: HandlerId): (t: Transition)
    ensures t.id == id && t.handler == handler
    ensures t.to.Some? && GetTo(t) == {}
  {
    Transition(id, handler, Some({}))
  }

  /** Registers `p` as a destination of `t`; creates the set first when the
      transition was built without one. */
  function AddTo(t: Transition, p: Place): (r: Transition)
    ensures r.id == t.id && r.handler == t.handler
    ensures r.to.Some?
    ensures p.id in GetTo(r)
    ensures GetTo(t) <= GetTo(r)
    ensures GetTo(r) - {p.id} <= GetTo(t)
  {
    var dests := if t.to.None? then {} else t.to.value;
    t.(to := Some(dests + {p.id}))
  }

  lemma AddToIdempotent(t: Transition, p: Place)
    ensures AddTo(AddTo(t, p), p) == AddTo(t, p)
  {
  }

  /** A transition whose set was never created behaves like a constructed one. */
  lemma AddToOnMissingSet(t: Transition, p: Place)
    requires t.to.None?
    ensures AddTo(t, p) == AddTo(t.(to := Some({})), p)
  {
  }
}
